=== FILE: README.md ===
# ENet-SFML state synchronisation, modelled in Dafny

A model of the client–server state synchronisation in the ENet + SFML example: an
authoritative server and predicting clients that share one movement and tile-collision
step.

- **Server tick.** Each tick the server handles the ENet events:
  - a connect binds a player slot;
  - a received input is buffered in the sender's slot;
  - a disconnect or time-out releases the slot.

  Then it drains every active player's buffered inputs through the movement step, discarding
  inputs whose frame time is above 0.16 s. Last, it broadcasts a snapshot of the whole roster.
- **Client frame.** Each frame the client:
  1. reads the snapshots, setting the local player's position and optionally reconciling it by
     replaying the inputs the server has not yet processed;
  2. buffers remote positions for interpolation;
  3. samples the keyboard into an input, sends it, remembers it with the state it was applied
     to, and optionally predicts it;
  4. interpolates remote entities between the two buffered samples that bracket the render
     time.

Modules, one per file, in dependency order:

| module | file | what it holds |
|---|---|---|
| `Base` | `base.dfy` | `Option`, 2-vectors over reals, u32 wrap-around and the i16 cast |
| `Keyboard` | `keyboard.dfy` | the held-key table |
| `Packet` | `packet.dfy` | `sf::Packet`, abstracted to a sequence of typed fields with a read cursor and a validity flag |
| `NetworkMessage` | `network_message.dfy` | the message envelope: u16 type tag, encoding, decoding |
| `Common` | `common.dfy` | the movement step: key decoding, velocity integration, tile collision, gravity |
| `Protocol` | `protocol.dfy` | the input and snapshot bodies, and their reads on the receiving side |
| `Server` | `server.dfy` | the slot registry, event handling, the input drain, the snapshot and the tick |
| `Application` | `application.dfy` | the client: snapshot handling, reconciliation, input, prediction, interpolation |

Undefined behaviour in the source is modelled as a `None` result. Three places have it:

- reading the u16 type tag from a packet shorter than two bytes, which leaves the tag uninitialised (src/NetworkMessage.h:46-49);
- dereferencing a null `peer->data` when an input arrives from a peer without a slot;
- indexing the roster with a player id outside it.

A slot release on the server is modelled twice, selected by `Server.Release`: as written
(`AsWritten`, the source's `reset_player_peer`, which leaves the slot's buffered inputs in
place) and corrected (`Corrected`, which drops them). The event loop and the tick take the mode
as a parameter; see "## Findings".

Times on the client are integer microseconds read from a clock that is passed in. Floats are
reals.

## Model

| member | source | states |
|---|---|---|
| Base.U32Succ | src/Application.cpp:228 | the u32 input counter steps by one and wraps to 0 after 2^32 - 1 |
| Base.ToI16 | src/Server.cpp:34 | storing a slot index into the i16 id keeps indices below 2^15 and otherwise wraps modulo 2^16 into the i16 range |
| Keyboard.New | src/Keyboard.cpp:3-6 | a new keyboard has every key up |
| Keyboard.IsKeyDown | src/Keyboard.cpp:29-32 | a key reads as held from the key table; on a new keyboard no key is held |
| Keyboard.Update | src/Keyboard.cpp:8-27 | a press sets exactly its key and a release clears exactly its key; every other key is unchanged; the Unknown code (-1) and other events change nothing |
| Keyboard.ResetKeys | src/Keyboard.cpp:34-37 | after a reset no key is down, whatever was held |
| Keyboard.PressThenQuery | src/Keyboard.cpp:8-32 | after a press, a key is down iff it is the pressed key or it was down before |
| Keyboard.PressReleaseRestores | src/Keyboard.cpp:8-27 | pressing and then releasing a key that was up restores the keyboard exactly |
| Packet.Write | src/Server.cpp:222-224 | writing appends the fields after the existing data and does not move the read position |
| Packet.Read | src/Application.cpp:164-165 | a typed read succeeds iff the payload is valid, a field is left and it has the requested kind; success returns that field and advances by one; failure invalidates the payload and reads nothing |
| Packet.InvalidStaysInvalid | src/Application.cpp:164-165 | once a read in a chain has failed, every later read fails and changes nothing |
| Packet.ReadWritten | src/Server.cpp:134-135 | the field at the read position comes back when read with its own kind |
| NetworkMessage.ToServerFromCode | src/NetworkMessage.h:8-14 | a code names the client-to-server type whose value it is; codes 0 to 2 name one |
| NetworkMessage.ToClientFromCode | src/NetworkMessage.h:16-27 | a code names the server-to-client type whose value it is; codes 0 to 5 name one |
| NetworkMessage.CodesRoundTrip | src/NetworkMessage.h:8-27 | every enumerator's code maps back to that enumerator, so the codes are distinct |
| NetworkMessage.FromType | src/NetworkMessage.h:36-40 | constructing from a type writes exactly the u16 tag and leaves the message's own type as None |
| NetworkMessage.Compose | src/NetworkMessage.h:36-40 | a constructed message followed by body writes holds the tag and then the body |
| NetworkMessage.Decode | src/NetworkMessage.h:42-51 | no packet gives type None and an empty payload; a packet whose first field is a u16 gives that tag cast to the u8 enum, with the cursor just past it; any other packet has no result: one shorter than two bytes casts an uninitialised tag, and one whose first field is another kind is not reinterpreted (see "## Left out") |
| NetworkMessage.DecodeComposed | src/NetworkMessage.h:36-56 | a composed message decodes, whatever the flags, to its own type, with the cursor just past the tag |
| Common.CellIndexInBounds | src/Common.cpp:112-119 | a row-major index of an in-range tile lies inside the map array |
| Common.CellIndexInjective | src/Common.cpp:118 | distinct in-range tiles have distinct row-major indices |
| Common.GetTile | src/Common.cpp:112-119 | a tile outside the map reads as empty; inside, the cell at `y * MAP_SIZE + x` |
| Common.WorldOf | src/Common.cpp:112-119 | a tile is solid exactly when `get_tile` is non-zero |
| Common.Trunc | src/Common.cpp:50-52 | the float-to-int cast truncates toward zero, on both sides of zero |
| Common.TruncOfInt | src/Common.cpp:52 | truncation leaves integers unchanged |
| Common.RespondX | src/Common.cpp:67-83 | moving right into a solid tile on the right, or left into a solid current tile, stops horizontal speed and snaps to the tile edge; otherwise x advances by the velocity |
| Common.RespondY | src/Common.cpp:85-101 | moving down onto a solid tile below lands: speed 0, snapped to the tile top, grounded; moving up into a solid tile stops at its bottom; otherwise y advances by the velocity |
| Common.ApplyMapCollisions | src/Common.cpp:44-110 | one collision pass: each axis responds as above from the current tile; grounded holds iff the entity landed; gravity 0.35 is added to vertical speed exactly when it did not land |
| Common.Impulse | src/Common.cpp:13-30 | A and D held together cancel, D alone pushes +25 and A alone -25; the upward push -625 comes only from W while grounded; S pushes +25 downward |
| Common.Clamp | src/Common.cpp:33-34 | `std::clamp`: the result lies in the bounds and equals the value when the value is inside them |
| Common.DampX | src/Common.cpp:33 | horizontal speed is clamped to ±256 and multiplied by 0.94; it keeps its sign and zero stays zero |
| Common.DampY | src/Common.cpp:34 | vertical speed is clamped to ±256 and multiplied by 0.98; it keeps its sign and zero stays zero |
| Common.Accelerate | src/Common.cpp:31-34 | velocity gains impulse times dt, then each axis is clamped and damped; position, size and grounded are unchanged |
| Common.DecodeKeys | src/Common.cpp:13-30 | each action is set exactly when its key's bit is set in the bitset; bits above the four keys are ignored |
| Common.ProcessInput | src/Common.cpp:11-42 | the input step (acceleration then one collision pass) keeps the entity's size |
| Common.Advance | src/Common.cpp:11-42 | a run of input steps keeps the entity's size, and a run of one input is one input step |
| Common.AdvanceAppend | src/Common.cpp:11-42 | applying two runs of inputs one after the other equals applying their concatenation |
| Common.DecodeWithoutW | src/Common.cpp:15 | clearing the W bit clears only the up action |
| Common.DecodeWithAD | src/Common.cpp:19-30 | setting or clearing both A and D sets or clears only the left and right actions |
| Common.JumpNeedsGround | src/Common.cpp:15-18 | in the air, holding W makes no difference to the step |
| Common.ImpulseIgnoresUpInAir | src/Common.cpp:15-18 | in the air the impulse ignores the up action |
| Common.OpposedKeysCancel | src/Common.cpp:19-30 | holding both A and D steps exactly like holding neither |
| Common.ImpulseOpposedCancel | src/Common.cpp:19-30 | the impulse of left plus right equals that of neither |
| Common.CollisionKeepsStanding | src/Common.cpp:85-109 | an entity standing on a solid tile stays standing in place through a collision pass |
| Common.IdlePush | src/Common.cpp:13-32 | without W, A or D held and with dt >= 0, the push keeps horizontal speed and never reduces vertical speed |
| Common.IdleImpulse | src/Common.cpp:13-32 | the same, stated over decoded actions |
| Common.IdleStepKeepsStanding | src/Common.cpp:11-42 | an input step with no jump or steering keeps a standing entity standing in place |
| Common.TileYOnEdge | src/Common.cpp:52 | an entity on a tile's top edge is in that tile row |
| Common.NoKeysDecode | src/Common.cpp:13-30 | a bitset without W, A, S or D decodes to no action |
| Common.NoActionsNoPush | src/Common.cpp:13-32 | with no action the velocity gains nothing |
| Common.StandingEntityStays | src/Common.cpp:11-42 | any run of idle inputs keeps a standing entity standing at the same position |
| Protocol.SnapshotBody | src/Server.cpp:219-225 | the snapshot body is five fields per entity |
| Protocol.SnapshotBodyAt | src/Server.cpp:220-225 | record k occupies fields 5k to 5k+4 of the body |
| Protocol.ReadRecord | src/Application.cpp:162-165 | reading a record keeps the data; a successful read moves the cursor past the five fields; on a failed payload the id and active flag keep their values and the sequence and position read as zero |
| Protocol.ReadRecordWritten | src/Application.cpp:162-165 | a written record reads back exactly, whatever the entity held before, and the cursor moves past it |
| Protocol.ReadRecordPastEnd | src/Application.cpp:162-165 | reading past the end leaves the entity's id and active flag as they were, with sequence and position zero |
| Protocol.ReadRecords | src/Application.cpp:158-165 | the loop reads one record per roster slot |
| Protocol.SnapshotBodyHead | src/Application.cpp:162-165 | a payload at a written snapshot body reads its first record back and is left at the body of the rest |
| Protocol.ReadSnapshotBody | src/Application.cpp:158-165 | a written snapshot body reads back record for record when both sides hold the same number of entities |
| Protocol.ReadInputBody | src/Server.cpp:134-135 | the read keeps the data; a successful read moves the cursor past three fields; the buffered input's own sequence is always 0; on a failed payload last processed is kept and the input is zero |
| Protocol.InputPacketRoundTrip | src/Application.cpp:247-249 | the server decodes the client's input message to the same type, sequence, dt and keys |
| Protocol.ReadInputWritten | src/Server.cpp:131-135 | the server recovers the sequence (into last processed), dt and keys; the buffered input's own sequence stays 0 |
| Protocol.ReadInputEmpty | src/Server.cpp:131-135 | an input message without a body keeps last processed and buffers a zero input |
| Server.Init | src/Server.cpp:30-42 | slot i gets id i; players start inactive with size 24 by 48; the other entities start active |
| Server.InitRegistryOk | src/Server.cpp:30-42 | the initial roster satisfies the registry invariant and no free slot holds inputs |
| Server.FreeSlotFrom | src/Server.cpp:88-101 | the slot found is the lowest player slot without a peer; none is found only when all are bound |
| Server.ClaimPreserves | src/Server.cpp:88-101 | claiming a free slot for an unbound peer keeps the registry invariant, and keeps free slots empty when they were |
| Server.OnConnect | src/Server.cpp:82-109 | a connect claims the lowest free slot and sends its id, or sends id 0 and changes nothing when the server is full; a join notice is always broadcast |
| Server.OnConnectPreserves | src/Server.cpp:82-109 | a connect of a peer not yet connected keeps the registry invariant, and keeps free slots empty when they were |
| Server.ResetPlayerPeer | src/Server.cpp:13-27 | releasing a peer frees its slot (no peer, inactive) and leaves the slot's buffered inputs in place; the peer's data is cleared; every other slot is unchanged; no peer changes nothing, and a peer without a slot only loses its data |
| Server.ResetPlayerPeerCorrected | src/Server.cpp:13-27 | the corrected release: the same, and the freed slot's buffer is emptied |
| Server.CorrectedReleaseDiffers | src/Server.cpp:13-27 | the corrected release differs from the release as written only in the freed slot's buffer |
| Server.OnLeave | src/Server.cpp:154-170 | disconnect and time-out both release the peer, in the chosen mode, and broadcast a leave notice |
| Server.OnLeavePreserves | src/Server.cpp:154-170 | a release keeps the registry invariant and unbinds the peer; the freed slot keeps its inputs as written and loses them when corrected; only the corrected release keeps free slots empty |
| Server.BufferInput | src/Server.cpp:129-145 | an input sets the slot's last processed sequence at receipt, before any filtering, and appends the input to that slot's buffer, changing nothing else |
| Server.BufferInputPreserves | src/Server.cpp:129-145 | buffering into an active player slot keeps the registry invariant and leaves free slots as they were |
| Server.OnReceive | src/Server.cpp:111-152 | text is relayed to everybody, input is buffered in the sender's slot, and other types are ignored; there is no result iff the packet has no type tag or an input comes from a peer with no slot |
| Server.OnReceivePreserves | src/Server.cpp:111-152 | a tagged packet from a connected peer always has a result; every result keeps the registry invariant and keeps free slots as they were |
| Server.HandleEvent | src/Server.cpp:77-175 | each event keeps the roster's shape; only a receive can fail, exactly when its handler does; other event types change nothing |
| Server.HandleEventPreserves | src/Server.cpp:77-175 | any event ENet can deliver keeps the registry invariant, and with the corrected release keeps free slots empty |
| Server.HandleEvents | src/Server.cpp:77-175 | the event loop keeps the roster's shape; no events change nothing |
| Server.HandleEventsFirst | src/Server.cpp:77-175 | the loop after its first event goes on from that event's state and fails exactly when the rest does |
| Server.HandleEventsPreserves | src/Server.cpp:77-175 | a run of deliverable events without undefined behaviour has a result and keeps the registry invariant; with the corrected release it keeps free slots empty |
| Server.ServerStep | src/Server.cpp:188-192 | an accepted input is the input step plus a second collision pass, keeping the size |
| Server.DrainInputs | src/Server.cpp:185-193 | running a buffer keeps the entity's size |
| Server.AcceptedOnly | src/Server.cpp:185-193 | the filter keeps only inputs with dt <= 0.16, never more than the buffer holds |
| Server.AcceptedOnlyCounts | src/Server.cpp:185-193 | every accepted input is kept as often as the buffer holds it and every rejected one is dropped, so no accepted input is lost |
| Server.AcceptedOnlyAppend | src/Server.cpp:185-193 | filtering keeps the buffer's order: the filter of two parts is the filter of the first part followed by that of the second |
| Server.DrainIsFilterThenStep | src/Server.cpp:185-193 | the drain equals dropping rejected inputs and applying the rest in order |
| Server.AllRejectedIsNoOp | src/Server.cpp:185-199 | a non-empty buffer of rejected inputs leaves the transform untouched, without even a collision pass |
| Server.DrainPlayer | src/Server.cpp:177-201 | an inactive slot is skipped, buffer and all; an active one applies its accepted inputs, or one collision pass when its buffer is empty, and ends with an empty buffer |
| Server.DrainPlayers | src/Server.cpp:177-201 | every player slot is drained and the other entities are untouched |
| Server.DrainPreserves | src/Server.cpp:177-201 | the drain keeps the registry invariant, empties every active player's buffer and leaves inactive slots untouched; every player buffer ends empty exactly when no free slot held inputs before |
| Server.OpenSpaceServerMovesTwice | src/Server.cpp:188-192 | in open space the server's extra pass doubles the horizontal displacement the client predicts |
| Server.RestingClientStep | src/Common.cpp:44-110 | the client's step keeps an entity at rest on the ground in place, but turns it airborne with gravity as its speed |
| Server.LandsInPlace | src/Common.cpp:85-93 | a pass over an entity on a tile edge falling onto a solid tile lands it where it is |
| Server.RestingGroundedDiverges | src/Server.cpp:188-192 | for a resting entity, client prediction says airborne and the server says grounded, at the same position |
| Server.ResetAsWrittenLeavesStaleInput | src/Server.cpp:13-27 | with the release as written, a released slot keeps its input, so a free slot holds inputs, and the next peer to connect inherits it |
| Server.ConnectStartsClean | src/Server.cpp:88-101 | while no free slot holds inputs, a newly claimed slot has an empty buffer |
| Server.ResetClearsStaleInput | src/Server.cpp:13-27 | with the corrected release, the same example keeps free slots empty and the next peer starts with an empty buffer |
| Server.SnapshotPacket | src/Server.cpp:219-226 | the snapshot is the tag followed by every record, sent with the default reliable flag |
| Server.SnapshotRoundTrip | src/Server.cpp:219-226 | a decoded snapshot has the snapshot type and gives back every entity's record |
| Server.Tick | src/Server.cpp:68-227 | a tick has no result iff the event loop has none; otherwise its last outgoing packet is the snapshot of the state it leaves |
| Server.TickDrains | src/Server.cpp:177-201 | the state a tick leaves is the drain of the state the event loop leaves |
| Server.TickPreserves | src/Server.cpp:68-227 | a tick over deliverable events keeps the registry invariant and leaves every active player's buffer empty; with the corrected release and no inputs in free slots, every player buffer ends empty |
| Server.StaleRunConnect | src/Server.cpp:82-109 | on a fresh one-player server, peer 7's connect takes slot 0 |
| Server.StaleRunBuffer | src/Server.cpp:129-145 | buffering a body that reads as sequence 5 and the sent input records the sequence and buffers the input |
| Server.StaleRunReceive | src/Server.cpp:111-145 | peer 7's input message is decoded and buffered in slot 0 with its sequence recorded |
| Server.StaleRunLeave | src/Server.cpp:154-170 | peer 7's disconnect frees slot 0, keeping the registry; the slot's buffer keeps the input as written and is empty when corrected |
| Server.StaleRunEvents | src/Server.cpp:77-175 | the run's event loop reaches the disconnect from the state after the connect and the input |
| Server.TickLeavesStaleInput | src/Server.cpp:177-201 | connect, input and disconnect in one tick: as written, the drain skips the freed slot and the input is still buffered after the tick; with the corrected release the slot ends empty |
| Application.Replay | src/Application.cpp:176-194 | when the server has processed every pending input, the replay leaves the state alone; when the stored states share the entity's size, so does the result |
| Application.ReplayChain | src/Application.cpp:177-194 | replaying a chained run of unprocessed inputs from its first stored state ends at the current state |
| Application.ReplaySkips | src/Application.cpp:177-194 | processed entries before the first unprocessed one are skipped |
| Application.ReplayFromReset | src/Application.cpp:184-192 | at the first unprocessed entry the state resets to the stored one, whatever it was |
| Application.ReplayReproduces | src/Application.cpp:174-195 | with a chained, increasing history and an unprocessed entry, reconciliation ends exactly at the predicted state, so the server's position is discarded |
| Application.ApplyRecord | src/Application.cpp:164-210 | every record overwrites slot `i`'s id and active flag, the other slots keep theirs and the connection state is kept; the local record sets the position, reconciles when enabled, empties the history and keeps the local buffer and every other slot, and a slot `i` other than the local one keeps its transform and buffer; an active remote record is buffered with its time (with interpolation) or written; an inactive one keeps its position; a player id outside the roster has no result |
| Application.LocalRecordInSync | src/Application.cpp:168-197 | when the server is in sync, or reconciliation is off, the local state takes the server's position and keeps the rest |
| Application.LocalRecordLagging | src/Application.cpp:168-197 | with reconciliation on while the server lags a chained prediction, the local state stays where prediction put it |
| Application.SnapshotFrom | src/Application.cpp:154-213 | the record loop keeps the roster size, player id, configuration and counter |
| Application.ApplyRecords | src/Application.cpp:154-213 | records applied in roster order keep the roster size, player id, configuration and counter; the loop fails exactly when a record carries the player id and that id is outside the roster |
| Application.SnapshotFromWritten | src/Application.cpp:154-213 | over a written snapshot body the record loop reads each record back and applies it to its slot, in order |
| Application.HandleMessage | src/Application.cpp:131-220 | ClientInfo sets the player id (kept when unreadable), a snapshot runs the record loop, and other types change nothing |
| Application.HandlePacket | src/Application.cpp:128-220 | a packet without a type tag has no result; otherwise the decoded message is handled, keeping the roster size, configuration and counter |
| Application.HandleSnapshotPacket | src/Application.cpp:128-220 | a snapshot packet with one record per entity applies its records, in roster order, to their slots |
| Application.HandleEvents | src/Application.cpp:124-225 | the receive loop keeps the roster size, configuration and counter |
| Application.KeysOf | src/Application.cpp:228-244 | a bit of the sent bitset is set exactly when its key is held, and no bit above the four keys is set |
| Application.SampleKeys | src/Application.cpp:228-244 | the sent bitset decodes to the W, A, S, D keys the keyboard holds |
| Application.FrameInput | src/Application.cpp:227-260 | the input takes the counter as its sequence and is sent; it is appended to the history with the pre-input state; it is applied only with prediction on; there is no result without a local entity |
| Application.ChainExtend | src/Application.cpp:251-260 | appending the current state and its input and then predicting keeps the history chained |
| Application.IncreasingExtend | src/Application.cpp:228 | appending a larger sequence keeps the history increasing |
| Application.FrameKeepsHistory | src/Application.cpp:227-260 | with prediction on, a frame keeps the history chained to the local state and increasing, while the counter does not wrap |
| Application.TrimBuffer | src/Application.cpp:281-284 | trimming drops a prefix of samples whose successors are not later than render time, keeping at least two and stopping at two or a later second sample |
| Application.Bracket | src/Application.cpp:286-305 | a position comes out exactly when the two oldest samples bracket render time with distinct timestamps |
| Application.BracketEndpoints | src/Application.cpp:289-296 | at t0 the position is p0, and at t1 it is p1 |
| Application.LerpBetween | src/Application.cpp:295-296 | `std::lerp` with a factor in [0, 1] lies between its endpoints |
| Application.FactorInUnit | src/Application.cpp:289-294 | inside the bracket the factor lies in [0, 1] |
| Application.BracketOnSegment | src/Application.cpp:286-305 | the interpolated position is the two samples interpolated with one common factor in [0, 1], so it lies on the segment between them and between them on each axis |
| Application.InterpolateEntity | src/Application.cpp:272-306 | inactive entities, the local player and short buffers are skipped; otherwise the buffer is trimmed and, when bracketed, the position is set and the rest of the transform kept, else the transform is kept |
| Application.Interpolate | src/Application.cpp:268-306 | every entity is interpolated on its own and nothing else changes |
| Application.OnUpdate | src/Application.cpp:109-306 | when not connected nothing happens; otherwise exactly one input packet is sent and the counter moves on |
| Application.NoPacketsNoChange | src/Application.cpp:124-225 | a receive loop that delivers no packet leaves the client as it was |
| Application.OnUpdateKeepsHistory | src/Application.cpp:109-306 | a connected frame without packets, with prediction on, sends exactly this frame's input, moves the local player by it, and keeps the history chained to the local state with increasing sequences |

## Left out

- Logging, `std::println`, `enet_host_flush`, packet destruction, the server thread, sleeping and the tick counter: none affect state.
- Non-player steering (src/Server.cpp:203-217), which needs a square root on floats. `Server.Tick` moves straight from the drain to the snapshot.
- Floating-point rounding: positions, velocities and times are reals. The float-to-int tile cast is modelled as truncation toward zero.
- `TILE_SIZE`, `MAP_SIZE` and `MAP` are defined outside the modelled files. `Common.TILE_SIZE` is fixed at 32 as a stand-in, and the map is a `TileMap` parameter.
- Connection set-up, the client's connect thread and its state transitions, and rendering are left out. The client's connection state is an input to `Application.OnUpdate`.
- Keyboard event plumbing in the window loop. The keyboard state is an input to each frame.
- The source reads the clock once per snapshot record (src/Application.cpp:203); the model takes one reading per received packet and uses it for all of that packet's records. The render time is `now - renderDelay`, with the delay (four server ticks in the source) given as a parameter.
- Application.InterpolateEntity: when `t0 == t1 == render_ts` the source divides zero by zero and writes NaN into the position. The model keeps the position in that case.
- NetworkMessage.Decode: a payload is a sequence of typed fields, so a read of the wrong kind fails. `sf::Packet` holds bytes and would read the tag from the first two bytes of whatever was written; the model gives no result for a packet whose first field is not a u16, although only one shorter than two bytes is undefined in the source.
- Server.OnConnectPreserves: requires that the connecting peer is not already connected. ENet never reports a second connect for a live peer.
- Server.HandleEventsPreserves: requires a run without undefined behaviour, that is, inputs only from connected peers and only packets with a type tag. The host is created with `MAX_CLIENTS` peers, so every connected peer holds a slot.
- Server.TickPreserves: an empty buffer is promised for every player slot only with the corrected release; as written it holds for active slots only (see "## Findings").
- Server.AcceptedOnly: that no accepted input is dropped is stated by `Server.AcceptedOnlyCounts`, for each input, rather than by the function's own contract.
- Application.OnUpdate: the receive loop with undefined behaviour gives no result, even though the source would carry on.
- Notes on the code as written:
  - The snapshot is broadcast with the default reliable flag (src/Server.cpp:226, src/NetworkMessage.h:53).
  - The client sends its input before predicting it (src/Application.cpp:249, 257-260).
  - The declarations in `Common.h` and the method names `Application.cpp` calls on the keyboard do not match `Keyboard.cpp`. The model uses the implementation files.

## Findings

| source | as written | input that shows it | evidently intended | confidence | as-written member | corrected member |
|---|---|---|---|---|---|---|
| src/Server.cpp:13-27 | `reset_player_peer` unbinds the slot and marks it inactive but leaves `input_buffer` as it is. The drain skips inactive slots, so the inputs stay. | On a one-player server, within one tick, peer 7 connects, sends an input with dt 0.1 and key D, and disconnects. After the tick, slot 0 is free and still holds that input. Peer 8 connects next and claims slot 0. The next drain applies peer 7's input to peer 8's entity. | Releasing a slot drops its buffered inputs, so a new occupant starts with an empty buffer. | not executed | Server.TickLeavesStaleInput and Server.ResetAsWrittenLeavesStaleInput, over Server.ResetPlayerPeer | Server.ResetPlayerPeerCorrected, with Server.ResetClearsStaleInput, Server.ConnectStartsClean and Server.TickPreserves |

=== FILE: application.dfy ===
/** The client's frame update: incoming packets (the player id, snapshots with reconciliation
    of the local player and buffering of remote ones), then this frame's input (sampled, sent,
    remembered with the state it was applied to, and predicted), then interpolation of remote
    entities between buffered snapshot positions. Times are integer microseconds. */
module Application {
  import opened Base
  import opened Packet
  import opened NetworkMessage
  import opened Common
  import opened Protocol
  import Keyboard

  datatype ConnectState = Disconnected | Connecting | Connected | ConnectFailed

  /** The three switches of the debug panel. */
  datatype Config = Config(interpolation: bool, prediction: bool, reconciliation: bool)

  /** A remote entity's position as received, stamped with the client's clock. */
  datatype Sample = Sample(timestamp: int, position: Vec2)

  datatype ClientEntity = ClientEntity(id: int, transform: Transform, active: bool, buffer: seq<Sample>)

  /** An input sent to the server together with the local transform it was applied to. */
  datatype PendingInput = PendingInput(input: Input, state: Transform)

  datatype Client = Client(
    connectState: ConnectState,
    playerId: int,
    entities: seq<ClientEntity>,
    pending: seq<PendingInput>,
    nextSequence: nat,
    config: Config)

  /** A received packet, with the client clock's reading when it is handled; the loop ignores
      every other event. */
  datatype ClientEvent = Received(packet: EnetPacket, at: int) | OtherClientEvent

  /** `entities_[(size_t)player_id_]` is defined. */
  predicate HasLocal(c: Client) {
    0 <= c.playerId < |c.entities|
  }

  function Local(c: Client): Transform
    requires HasLocal(c)
  {
    c.entities[c.playerId].transform
  }

  function WithLocal(c: Client, t: Transform): (r: Client)
    requires HasLocal(c)
    ensures HasLocal(r) && Local(r) == t && |r.entities| == |c.entities|
    ensures r == c.(entities := r.entities) && r.entities[c.playerId] == c.entities[c.playerId].(transform := t)
    ensures forall j :: 0 <= j < |c.entities| && j != c.playerId ==> r.entities[j] == c.entities[j]
  {
    c.(entities := c.entities[c.playerId := c.entities[c.playerId].(transform := t)])
  }

  // ---------------------------------------------------------------------------------------
  // Reconciliation

  /** The replay loop over the pending history: entries the server has already processed are
      skipped; at the first one it has not, the local state is reset to that entry's stored
      state; from there on every unprocessed entry is applied again. */
  function Replay(w: World, t: Transform, pending: seq<PendingInput>, ack: nat, found: bool): (r: Transform)
    ensures (forall k :: 0 <= k < |pending| ==> !OutOfSync(pending[k], ack)) ==> r == t
    ensures (forall k :: 0 <= k < |pending| ==> pending[k].state.size == t.size) ==> r.size == t.size
    decreases |pending|
  {
    if pending == [] then t
    else if pending[0].input.sequence > ack then
      Replay(w, ProcessInput(w, if found then t else pending[0].state, pending[0].input), pending[1..], ack, true)
    else Replay(w, t, pending[1..], ack, found)
  }

  /** Each stored state is its predecessor advanced by its predecessor's input, and `current`
      is the last stored state advanced by the last input: the history prediction builds. */
  predicate Chained(w: World, pending: seq<PendingInput>, current: Transform) {
    |pending| > 0 ==>
      && (forall k :: 0 <= k < |pending| - 1 ==> pending[k + 1].state == ProcessInput(w, pending[k].state, pending[k].input))
      && current == ProcessInput(w, pending[|pending| - 1].state, pending[|pending| - 1].input)
  }

  /** Sequence numbers strictly increase along the history. */
  predicate Increasing(pending: seq<PendingInput>) {
    forall j, k :: 0 <= j < k < |pending| ==> pending[j].input.sequence < pending[k].input.sequence
  }

  predicate OutOfSync(p: PendingInput, ack: nat) {
    p.input.sequence > ack
  }

  /** A chain stays a chain when its head is dropped. */
  lemma ChainedTail(w: World, pending: seq<PendingInput>, current: Transform)
    requires |pending| > 1 && Chained(w, pending, current)
    ensures Chained(w, pending[1..], current)
    ensures pending[1].state == ProcessInput(w, pending[0].state, pending[0].input)
  {
    assert pending[1..][|pending[1..]| - 1] == pending[|pending| - 1];
    forall k | 0 <= k < |pending[1..]| - 1
      ensures pending[1..][k + 1].state == ProcessInput(w, pending[1..][k].state, pending[1..][k].input)
    {
      assert pending[1..][k + 1] == pending[k + 2] && pending[1..][k] == pending[k + 1];
    }
  }

  /** Replaying a chained run of unacknowledged inputs from its first stored state ends at the
      current state. */
  lemma {:induction false} ReplayChain(w: World, t: Transform, pending: seq<PendingInput>, ack: nat, current: Transform)
    requires |pending| > 0 && Chained(w, pending, current) && t == pending[0].state
    requires forall k :: 0 <= k < |pending| ==> OutOfSync(pending[k], ack)
    ensures Replay(w, t, pending, ack, true) == current
    decreases |pending|
  {
    var next := ProcessInput(w, t, pending[0].input);
    assert Replay(w, t, pending, ack, true) == Replay(w, next, pending[1..], ack, true);
    if |pending| > 1 {
      ChainedTail(w, pending, current);
      ReplayChain(w, next, pending[1..], ack, current);
    }
  }

  /** Entries before `m` are all acknowledged: the replay starts at `m`. */
  lemma {:induction false} ReplaySkips(w: World, t: Transform, pending: seq<PendingInput>, ack: nat, m: nat)
    requires m <= |pending|
    requires forall k :: 0 <= k < m ==> !OutOfSync(pending[k], ack)
    ensures Replay(w, t, pending, ack, false) == Replay(w, t, pending[m..], ack, false)
    decreases m
  {
    if m > 0 {
      assert pending[1..][m - 1..] == pending[m..];
      ReplaySkips(w, t, pending[1..], ack, m - 1);
    }
  }

  /** A chain stays a chain from any entry on. */
  lemma {:induction false} ChainedSuffix(w: World, pending: seq<PendingInput>, current: Transform, m: nat)
    requires m < |pending| && Chained(w, pending, current)
    ensures Chained(w, pending[m..], current)
    decreases m
  {
    if m > 0 {
      ChainedTail(w, pending, current);
      assert pending[1..][m - 1..] == pending[m..];
      ChainedSuffix(w, pending[1..], current, m - 1);
    }
  }

  /** The index of the first entry the server has not processed, `|pending|` when there is none. */
  function FirstOutOfSync(pending: seq<PendingInput>, ack: nat): (first: nat)
    ensures first <= |pending|
    ensures forall k :: 0 <= k < first ==> !OutOfSync(pending[k], ack)
    ensures first < |pending| ==> OutOfSync(pending[first], ack)
    decreases |pending|
  {
    if pending == [] then 0
    else if OutOfSync(pending[0], ack) then 0
    else 1 + FirstOutOfSync(pending[1..], ack)
  }

  /** In an increasing history every entry after an unprocessed one is unprocessed too. */
  lemma AllOutOfSyncAfter(pending: seq<PendingInput>, ack: nat, first: nat)
    requires Increasing(pending) && first < |pending| && OutOfSync(pending[first], ack)
    ensures forall k :: 0 <= k < |pending[first..]| ==> OutOfSync(pending[first..][k], ack)
  {
    forall k | 0 <= k < |pending[first..]|
      ensures OutOfSync(pending[first..][k], ack)
    {
      assert pending[first..][k] == pending[first + k];
    }
  }

  /** Replay from the reset point on, when every remaining entry is unprocessed. */
  lemma ReplayFromReset(w: World, t: Transform, rest: seq<PendingInput>, ack: nat, current: Transform)
    requires |rest| > 0 && Chained(w, rest, current)
    requires forall k :: 0 <= k < |rest| ==> OutOfSync(rest[k], ack)
    ensures Replay(w, t, rest, ack, false) == current
  {
    var next := ProcessInput(w, rest[0].state, rest[0].input);
    assert Replay(w, t, rest, ack, false) == Replay(w, next, rest[1..], ack, true);
    if |rest| > 1 {
      ChainedTail(w, rest, current);
      ReplayChain(w, next, rest[1..], ack, current);
    }
  }

  /** Reconciliation reproduces the prediction: when the history is chained to the current
      local state and its sequences increase, and the server has not yet processed some entry,
      the replay ends exactly at the current state, whatever state it started from (so the
      position the server sent is discarded). */
  lemma ReplayReproduces(w: World, t: Transform, pending: seq<PendingInput>, ack: nat, current: Transform, m: nat)
    requires Chained(w, pending, current) && Increasing(pending)
    requires m < |pending| && OutOfSync(pending[m], ack)
    ensures Replay(w, t, pending, ack, false) == current
  {
    var first := FirstOutOfSync(pending, ack);
    assert first <= m;
    ReplaySkips(w, t, pending, ack, first);
    ChainedSuffix(w, pending, current, first);
    AllOutOfSyncAfter(pending, ack, first);
    ReplayFromReset(w, t, pending[first..], ack, current);
  }

  // ---------------------------------------------------------------------------------------
  // Snapshot handling

  /** One snapshot record, applied to entity slot `i`: the record's id and active flag are read
      straight into the slot, whichever entity it describes. The local player's record sets the local position, reconciles when enabled,
      and always empties the history; an active remote entity gets the position buffered (with
      interpolation) or written; an inactive one keeps its position. Indexing the roster with a
      player id outside it has no result. */
  function ApplyRecord(w: World, c: Client, i: nat, rec: Record, at: int): (r: Option<Client>)
    requires i < |c.entities|
    ensures r.Some? ==> |r.value.entities| == |c.entities| && r.value.playerId == c.playerId
    ensures r.Some? ==> r.value.config == c.config && r.value.nextSequence == c.nextSequence
    ensures r.Some? ==> r.value.connectState == c.connectState
    ensures r.None? <==> rec.id == c.playerId && !HasLocal(c)
    ensures r.Some? && rec.id == c.playerId ==>
              && HasLocal(c)
              && r.value.pending == []
              && Local(r.value) == (if c.config.reconciliation
                                    then Replay(w, Local(c).(position := rec.position), c.pending, rec.lastProcessed, false)
                                    else Local(c).(position := rec.position))
    ensures r.Some? && rec.id == c.playerId ==>
              && r.value.entities[i].id == rec.id && r.value.entities[i].active == rec.active
              && r.value.entities[c.playerId].buffer == c.entities[c.playerId].buffer
              && (i != c.playerId ==> r.value.entities[c.playerId] == c.entities[c.playerId].(transform := Local(r.value)))
              && (i != c.playerId ==> r.value.entities[i] == c.entities[i].(id := rec.id, active := rec.active))
              && (forall j :: 0 <= j < |c.entities| && j != i && j != c.playerId ==> r.value.entities[j] == c.entities[j])
    ensures r.Some? && rec.id != c.playerId ==>
              && r.value.pending == c.pending
              && r.value.entities[i].id == rec.id && r.value.entities[i].active == rec.active
              && (forall j :: 0 <= j < |c.entities| && j != i ==> r.value.entities[j] == c.entities[j])
    ensures r.Some? && rec.id != c.playerId && rec.active ==>
              if c.config.interpolation then
                r.value.entities[i].buffer == c.entities[i].buffer + [Sample(at, rec.position)]
                && r.value.entities[i].transform == c.entities[i].transform
              else
                r.value.entities[i].transform == c.entities[i].transform.(position := rec.position)
                && r.value.entities[i].buffer == c.entities[i].buffer
    ensures r.Some? && rec.id != c.playerId && !rec.active ==>
              r.value.entities[i] == c.entities[i].(id := rec.id, active := rec.active)
  {
    var e := c.entities[i].(id := rec.id, active := rec.active);
    var c1 := c.(entities := c.entities[i := e]);
    if rec.id == c.playerId then
      if !HasLocal(c) then None
      else
        var t := Local(c1).(position := rec.position);
        var t' := if c.config.reconciliation then Replay(w, t, c.pending, rec.lastProcessed, false) else t;
        Some(WithLocal(c1, t').(pending := []))
    else if rec.active then
      if c.config.interpolation then
        Some(c.(entities := c.entities[i := e.(buffer := e.buffer + [Sample(at, rec.position)])]))
      else
        Some(c.(entities := c.entities[i := e.(transform := e.transform.(position := rec.position))]))
    else Some(c1)
  }

  /** The local player's record when the server has processed every pending input, or when
      reconciliation is off: the local state takes the server's position and keeps the rest. */
  lemma LocalRecordInSync(w: World, c: Client, i: nat, rec: Record, at: int)
    requires i < |c.entities| && HasLocal(c) && rec.id == c.playerId
    requires !c.config.reconciliation || forall k :: 0 <= k < |c.pending| ==> !OutOfSync(c.pending[k], rec.lastProcessed)
    ensures ApplyRecord(w, c, i, rec, at).Some?
    ensures Local(ApplyRecord(w, c, i, rec, at).value) == Local(c).(position := rec.position)
  {
  }

  /** The local player's record, with reconciliation on, while the server lags behind a
      prediction whose history is chained and increasing: the local state stays exactly where
      prediction put it, whatever position the server sent. */
  lemma LocalRecordLagging(w: World, c: Client, i: nat, rec: Record, at: int, m: nat)
    requires i < |c.entities| && HasLocal(c) && rec.id == c.playerId && c.config.reconciliation
    requires Chained(w, c.pending, Local(c)) && Increasing(c.pending)
    requires m < |c.pending| && OutOfSync(c.pending[m], rec.lastProcessed)
    ensures ApplyRecord(w, c, i, rec, at).Some?
    ensures Local(ApplyRecord(w, c, i, rec, at).value) == Local(c)
  {
    ReplayReproduces(w, Local(c).(position := rec.position), c.pending, rec.lastProcessed, Local(c), m);
  }

  /** The snapshot loop from roster slot `i` on, reading one record per slot. */
  function SnapshotFrom(w: World, c: Client, p: Payload, i: nat, at: int): (r: Option<Client>)
    requires i <= |c.entities|
    ensures r.Some? ==> |r.value.entities| == |c.entities| && r.value.playerId == c.playerId
    ensures r.Some? ==> r.value.config == c.config && r.value.nextSequence == c.nextSequence
    decreases |c.entities| - i
  {
    if i == |c.entities| then Some(c)
    else
      var (q, rec) := ReadRecord(p, c.entities[i].id, c.entities[i].active);
      match ApplyRecord(w, c, i, rec, at)
      case None => None
      case Some(c1) => SnapshotFrom(w, c1, q, i + 1, at)
  }

  /** Records applied in roster order, record `k` to slot `i + k`. The loop fails exactly when
      a record carries the player id while that id indexes outside the roster. */
  function ApplyRecords(w: World, c: Client, rs: seq<Record>, i: nat, at: int): (r: Option<Client>)
    requires i + |rs| == |c.entities|
    ensures r.Some? ==> |r.value.entities| == |c.entities| && r.value.playerId == c.playerId
    ensures r.Some? ==> r.value.config == c.config && r.value.nextSequence == c.nextSequence
    ensures r.None? <==> !HasLocal(c) && exists k :: 0 <= k < |rs| && rs[k].id == c.playerId
    decreases |rs|
  {
    if rs == [] then Some(c)
    else
      match ApplyRecord(w, c, i, rs[0], at)
      case None => None
      case Some(c1) =>
        var r := ApplyRecords(w, c1, rs[1..], i + 1, at);
        assert forall k :: 1 <= k < |rs| ==> rs[k] == rs[1..][k - 1];
        r
  }

  /** The record loop over a payload positioned at a written snapshot body, one record per
      slot, reads each record back and applies it: the loop is the records applied in order. */
  lemma {:induction false} SnapshotFromWritten(w: World, c: Client, p: Payload, rs: seq<Record>, i: nat, at: int)
    requires i + |rs| == |c.entities|
    requires p.valid && p.readPos + |SnapshotBody(rs)| <= |p.data|
    requires p.data[p.readPos .. p.readPos + |SnapshotBody(rs)|] == SnapshotBody(rs)
    ensures SnapshotFrom(w, c, p, i, at) == ApplyRecords(w, c, rs, i, at)
    decreases |rs|
  {
    if rs != [] {
      SnapshotBodyHead(p, rs, c.entities[i].id, c.entities[i].active);
      var q := p.(readPos := p.readPos + RECORD_FIELDS);
      match ApplyRecord(w, c, i, rs[0], at)
      case None =>
      case Some(c1) => SnapshotFromWritten(w, c1, q, rs[1..], i + 1, at);
    }
  }

  /** One decoded message: ClientInfo sets the player id (kept when unreadable), a snapshot
      runs the record loop, everything else changes nothing. */
  function HandleMessage(w: World, c: Client, m: Message, at: int): (r: Option<Client>)
    ensures r.Some? ==> |r.value.entities| == |c.entities|
    ensures r.Some? ==> r.value.config == c.config && r.value.nextSequence == c.nextSequence
    ensures m.messageType == ClientInfo.Code() ==> r == Some(c.(playerId := ReadI16(m.payload).1.GetOr(c.playerId)))
    ensures m.messageType == Snapshot.Code() ==> r == SnapshotFrom(w, c, m.payload, 0, at)
    ensures m.messageType !in {ClientInfo.Code(), Snapshot.Code()} ==> r == Some(c)
  {
    if m.messageType == ClientInfo.Code() then
      var (_, id) := ReadI16(m.payload);
      Some(c.(playerId := id.GetOr(c.playerId)))
    else if m.messageType == Snapshot.Code() then SnapshotFrom(w, c, m.payload, 0, at)
    else Some(c)
  }

  /** One received packet, decoded and handled; a packet too short to hold its type tag has no
      result. */
  function HandlePacket(w: World, c: Client, packet: EnetPacket, at: int): (r: Option<Client>)
    ensures r.Some? ==> |r.value.entities| == |c.entities|
    ensures r.Some? ==> r.value.config == c.config && r.value.nextSequence == c.nextSequence
    ensures Decode(Some(packet)).None? ==> r.None?
    ensures Decode(Some(packet)).Some? ==> r == HandleMessage(w, c, Decode(Some(packet)).value, at)
  {
    match Decode(Some(packet))
    case None => None
    case Some(m) => HandleMessage(w, c, m, at)
  }

  /** A snapshot packet holding one record per entity is handled by applying its records, in
      roster order, each to its slot. */
  lemma HandleSnapshotPacket(w: World, c: Client, rs: seq<Record>, flags: nat, at: int)
    requires |rs| == |c.entities|
    ensures HandlePacket(w, c, ToEnetPacket(Compose(Snapshot.Code(), SnapshotBody(rs)), flags), at)
         == ApplyRecords(w, c, rs, 0, at)
  {
    var body := SnapshotBody(rs);
    DecodeComposed(Snapshot.Code(), body, flags);
    var m := Decode(Some(ToEnetPacket(Compose(Snapshot.Code(), body), flags))).value;
    SnapshotPayloadAtBody(body);
    SnapshotFromWritten(w, c, m.payload, rs, 0, at);
  }

  /** The payload of a decoded message sits at its body. */
  lemma SnapshotPayloadAtBody(body: seq<Field>)
    ensures var p := Payload([U16(Snapshot.Code())] + body, 1, true);
            p.readPos + |body| <= |p.data| && p.data[p.readPos .. p.readPos + |body|] == body
  {
    var p := Payload([U16(Snapshot.Code())] + body, 1, true);
    assert p.data[1 .. 1 + |body|] == body;
  }

  function HandleEvents(w: World, c: Client, events: seq<ClientEvent>): (r: Option<Client>)
    ensures r.Some? ==> |r.value.entities| == |c.entities|
    ensures r.Some? ==> r.value.config == c.config && r.value.nextSequence == c.nextSequence
    decreases |events|
  {
    if events == [] then Some(c)
    else
      match events[0]
      case OtherClientEvent => HandleEvents(w, c, events[1..])
      case Received(packet, at) =>
        match HandlePacket(w, c, packet, at)
        case None => None
        case Some(c1) => HandleEvents(w, c1, events[1..])
  }

  // ---------------------------------------------------------------------------------------
  // This frame's input

  /** The key bitset of four held flags, one `|=` per held action: a bit of the sent bitset is
      set exactly when its key is held, and no other bit is set. */
  function KeysOf(up: bool, left: bool, down: bool, right: bool): (r: bv8)
    ensures DecodeKeys(r) == Actions(up, left, down, right)
    ensures r & 0xF0 == 0
  {
    (if up then KEY_W else KEY_NONE) | (if left then KEY_A else KEY_NONE)
    | (if down then KEY_S else KEY_NONE) | (if right then KEY_D else KEY_NONE)
  }

  /** The keys the keyboard holds for W, A, S and D. */
  function SampleKeys(ks: Keyboard.KeyState): (keys: bv8)
    requires Keyboard.KEY_W < |ks.down|
    ensures DecodeKeys(keys) == Actions(Keyboard.IsKeyDown(ks, Keyboard.KEY_W), Keyboard.IsKeyDown(ks, Keyboard.KEY_A),
                                        Keyboard.IsKeyDown(ks, Keyboard.KEY_S), Keyboard.IsKeyDown(ks, Keyboard.KEY_D))
  {
    var up := Keyboard.IsKeyDown(ks, Keyboard.KEY_W);
    var left := Keyboard.IsKeyDown(ks, Keyboard.KEY_A);
    var down := Keyboard.IsKeyDown(ks, Keyboard.KEY_S);
    var right := Keyboard.IsKeyDown(ks, Keyboard.KEY_D);
    KeysOf(up, left, down, right)
  }

  /** The frame's input takes the current counter as its sequence (the u32 counter then moves
      on), is sent, is appended to the history with the local state as it was before this
      input, and is applied to the local state only with prediction on. */
  function FrameInput(w: World, c: Client, dt: real, ks: Keyboard.KeyState): (r: Option<(Client, EnetPacket)>)
    requires Keyboard.KEY_W < |ks.down| && IsU32(c.nextSequence)
    ensures r.Some? <==> HasLocal(c)
    ensures r.Some? ==>
              var (c', packet) := r.value;
              var input := Input(c.nextSequence, dt, SampleKeys(ks));
              && packet == InputPacket(input)
              && c'.nextSequence == U32Succ(c.nextSequence)
              && c'.pending == c.pending + [PendingInput(input, Local(c))]
              && HasLocal(c') && Local(c') == (if c.config.prediction then ProcessInput(w, Local(c), input) else Local(c))
              && c'.config == c.config && c'.playerId == c.playerId && |c'.entities| == |c.entities|
              && c'.connectState == c.connectState
              && c'.entities[c.playerId] == c.entities[c.playerId].(transform := Local(c'))
              && forall j :: 0 <= j < |c.entities| && j != c.playerId ==> c'.entities[j] == c.entities[j]
  {
    var input := Input(c.nextSequence, dt, SampleKeys(ks));
    var packet := InputPacket(input);
    if !HasLocal(c) then None
    else
      var t := Local(c);
      var t' := if c.config.prediction then ProcessInput(w, t, input) else t;
      var c1 := c.(pending := c.pending + [PendingInput(input, t)], nextSequence := U32Succ(c.nextSequence));
      Some((WithLocal(c1, t'), packet))
  }

  /** Appending the current state with its input, and advancing by it, extends a chain. */
  lemma ChainExtend(w: World, pending: seq<PendingInput>, current: Transform, input: Input)
    requires Chained(w, pending, current)
    ensures Chained(w, pending + [PendingInput(input, current)], ProcessInput(w, current, input))
  {
    var ps := pending + [PendingInput(input, current)];
    forall k | 0 <= k < |ps| - 1
      ensures ps[k + 1].state == ProcessInput(w, ps[k].state, ps[k].input)
    {
      assert ps[k] == pending[k];
      if k + 1 < |pending| {
        assert ps[k + 1] == pending[k + 1];
      }
    }
  }

  /** Appending a sequence number above all others keeps the history increasing. */
  lemma IncreasingExtend(pending: seq<PendingInput>, p: PendingInput)
    requires Increasing(pending)
    requires forall k :: 0 <= k < |pending| ==> pending[k].input.sequence < p.input.sequence
    ensures Increasing(pending + [p])
  {
    var ps := pending + [p];
    forall j, k | 0 <= j < k < |ps|
      ensures ps[j].input.sequence < ps[k].input.sequence
    {
      assert ps[j] == pending[j];
    }
  }

  /** With prediction on, the history stays chained to the local state frame after frame, and
      sequences keep increasing as long as the counter does not wrap. */
  lemma FrameKeepsHistory(w: World, c: Client, dt: real, ks: Keyboard.KeyState)
    requires Keyboard.KEY_W < |ks.down| && c.nextSequence + 1 < U32_LIMIT && HasLocal(c)
    requires c.config.prediction && Chained(w, c.pending, Local(c))
    requires Increasing(c.pending) && forall k :: 0 <= k < |c.pending| ==> c.pending[k].input.sequence < c.nextSequence
    ensures var c' := FrameInput(w, c, dt, ks).value.0;
            && Chained(w, c'.pending, Local(c'))
            && Increasing(c'.pending)
            && forall k :: 0 <= k < |c'.pending| ==> c'.pending[k].input.sequence < c'.nextSequence
  {
    var input := Input(c.nextSequence, dt, SampleKeys(ks));
    var c' := FrameInput(w, c, dt, ks).value.0;
    assert c'.pending == c.pending + [PendingInput(input, Local(c))];
    assert Local(c') == ProcessInput(w, Local(c), input);
    assert c'.nextSequence == c.nextSequence + 1;
    ChainExtend(w, c.pending, Local(c), input);
    IncreasingExtend(c.pending, PendingInput(input, Local(c)));
  }

  // ---------------------------------------------------------------------------------------
  // Interpolation

  /** Drop the oldest sample while more than two remain and the second oldest is not later
      than the render time. */
  function TrimBuffer(b: seq<Sample>, renderTs: int): (r: seq<Sample>)
    requires |b| >= 2
    ensures 2 <= |r| <= |b| && r == b[|b| - |r|..]
    ensures |r| == 2 || renderTs < r[1].timestamp
    ensures forall j :: 1 <= j <= |b| - |r| ==> b[j].timestamp <= renderTs
    decreases |b|
  {
    if |b| > 2 && b[1].timestamp <= renderTs then TrimBuffer(b[1..], renderTs) else b
  }

  /** `std::lerp` on reals. */
  function Lerp(a: real, b: real, t: real): real {
    a + t * (b - a)
  }

  /** The interpolation factor of `renderTs` between `t0` and `t1`. */
  function Factor(t0: int, t1: int, renderTs: int): (f: real)
    requires t0 < t1
  {
    (renderTs - t0) as real / (t1 - t0) as real
  }

  /** The position at `renderTs` when the two oldest samples bracket it. */
  function Bracket(b: seq<Sample>, renderTs: int): (r: Option<Vec2>)
    requires |b| >= 2
    ensures r.Some? ==> b[0].timestamp <= renderTs <= b[1].timestamp && b[0].timestamp < b[1].timestamp
    ensures b[0].timestamp <= renderTs <= b[1].timestamp && b[0].timestamp < b[1].timestamp ==> r.Some?
  {
    var t0 := b[0].timestamp;
    var t1 := b[1].timestamp;
    if t0 <= renderTs <= t1 && t0 < t1 then
      var f := Factor(t0, t1, renderTs);
      Some(Vec2(Lerp(b[0].position.x, b[1].position.x, f), Lerp(b[0].position.y, b[1].position.y, f)))
    else None
  }

  /** At either end of the bracket the position is that sample's position. */
  lemma BracketEndpoints(b: seq<Sample>, renderTs: int)
    requires |b| >= 2 && b[0].timestamp < b[1].timestamp
    ensures renderTs == b[0].timestamp ==> Bracket(b, renderTs) == Some(b[0].position)
    ensures renderTs == b[1].timestamp ==> Bracket(b, renderTs) == Some(b[1].position)
  {
    var t0 := b[0].timestamp;
    var t1 := b[1].timestamp;
    if renderTs == t0 {
      assert Factor(t0, t1, renderTs) == 0.0;
    }
    if renderTs == t1 {
      assert Factor(t0, t1, renderTs) == 1.0;
    }
  }

  lemma LerpBetween(a: real, b: real, f: real)
    requires 0.0 <= f <= 1.0
    ensures a <= b ==> a <= Lerp(a, b, f) <= b
    ensures b <= a ==> b <= Lerp(a, b, f) <= a
  {
    var d := b - a;
    if a <= b {
      MulNonNeg(f, d);
      MulNonNeg(1.0 - f, d);
    } else {
      MulNonNeg(f, -d);
      MulNonNeg(1.0 - f, -d);
    }
  }

  lemma MulNonNeg(x: real, y: real)
    requires 0.0 <= x && 0.0 <= y
    ensures 0.0 <= x * y
  {
  }

  lemma FactorInUnit(t0: int, t1: int, renderTs: int)
    requires t0 <= renderTs <= t1 && t0 < t1
    ensures 0.0 <= Factor(t0, t1, renderTs) <= 1.0
  {
  }

  /** The bracketed position lies on the segment between the two samples: both coordinates
      are interpolated with one common factor in [0, 1], so each lies between the samples'. */
  lemma BracketOnSegment(b: seq<Sample>, renderTs: int)
    requires |b| >= 2 && Bracket(b, renderTs).Some?
    ensures exists f :: 0.0 <= f <= 1.0 && Bracket(b, renderTs).value
              == Vec2(Lerp(b[0].position.x, b[1].position.x, f), Lerp(b[0].position.y, b[1].position.y, f))
    ensures var p := Bracket(b, renderTs).value;
            && (b[0].position.x <= b[1].position.x ==> b[0].position.x <= p.x <= b[1].position.x)
            && (b[1].position.x <= b[0].position.x ==> b[1].position.x <= p.x <= b[0].position.x)
            && (b[0].position.y <= b[1].position.y ==> b[0].position.y <= p.y <= b[1].position.y)
            && (b[1].position.y <= b[0].position.y ==> b[1].position.y <= p.y <= b[0].position.y)
  {
    var f := Factor(b[0].timestamp, b[1].timestamp, renderTs);
    FactorInUnit(b[0].timestamp, b[1].timestamp, renderTs);
    LerpBetween(b[0].position.x, b[1].position.x, f);
    LerpBetween(b[0].position.y, b[1].position.y, f);
  }

  /** One entity at interpolation time: the local player, inactive entities and entities with
      fewer than two samples are skipped; otherwise the buffer is trimmed and the position is
      set only when the two oldest samples bracket the render time. */
  function InterpolateEntity(e: ClientEntity, renderTs: int, playerId: int): (r: ClientEntity)
    ensures r.id == e.id && r.active == e.active
    ensures !e.active || |e.buffer| < 2 || playerId == e.id ==> r == e
    ensures e.active && |e.buffer| >= 2 && playerId != e.id ==>
              && r.buffer == TrimBuffer(e.buffer, renderTs)
              && (Bracket(r.buffer, renderTs).Some? ==> r.transform == e.transform.(position := Bracket(r.buffer, renderTs).value))
              && (Bracket(r.buffer, renderTs).None? ==> r.transform == e.transform)
  {
    if !e.active || |e.buffer| < 2 || playerId == e.id then e
    else
      var b := TrimBuffer(e.buffer, renderTs);
      match Bracket(b, renderTs)
      case Some(p) => e.(buffer := b, transform := e.transform.(position := p))
      case None => e.(buffer := b)
  }

  function Interpolate(c: Client, renderTs: int): (r: Client)
    ensures r == c.(entities := r.entities) && |r.entities| == |c.entities|
    ensures forall i :: 0 <= i < |c.entities| ==> r.entities[i] == InterpolateEntity(c.entities[i], renderTs, c.playerId)
  {
    c.(entities := seq(|c.entities|, i requires 0 <= i < |c.entities| => InterpolateEntity(c.entities[i], renderTs, c.playerId)))
  }

  // ---------------------------------------------------------------------------------------
  // The frame

  /** `on_update`: nothing at all unless connected; otherwise the received packets, this
      frame's input and, with interpolation on, interpolation at `now - renderDelay`. The
      packets sent are returned. No result when a step has undefined behaviour. */
  function OnUpdate(w: World, c: Client, events: seq<ClientEvent>, dt: real, ks: Keyboard.KeyState,
                    now: int, renderDelay: int): (r: Option<(Client, seq<EnetPacket>)>)
    requires Keyboard.KEY_W < |ks.down| && IsU32(c.nextSequence)
    ensures c.connectState != Connected ==> r == Some((c, []))
    ensures c.connectState == Connected && r.Some? ==>
              |r.value.1| == 1 && r.value.0.nextSequence == U32Succ(c.nextSequence)
  {
    if c.connectState != Connected then Some((c, []))
    else
      match HandleEvents(w, c, events)
      case None => None
      case Some(c1) =>
        match FrameInput(w, c1, dt, ks)
        case None => None
        case Some((c2, packet)) =>
          var c3 := if c2.config.interpolation then Interpolate(c2, now - renderDelay) else c2;
          Some((c3, [packet]))
  }

  /** A loop that delivers no packet leaves the client as it was. */
  lemma {:induction false} NoPacketsNoChange(w: World, c: Client, events: seq<ClientEvent>)
    requires forall k :: 0 <= k < |events| ==> events[k].OtherClientEvent?
    ensures HandleEvents(w, c, events) == Some(c)
    decreases |events|
  {
    if events != [] {
      NoPacketsNoChange(w, c, events[1..]);
    }
  }

  /** A connected frame without packets, with prediction on: exactly the frame's input is sent,
      the local player moves by it, interpolation leaves the local player alone, and the history
      stays chained to the local state with increasing sequences, ready for the next
      reconciliation. */
  lemma OnUpdateKeepsHistory(w: World, c: Client, events: seq<ClientEvent>, dt: real, ks: Keyboard.KeyState,
                             now: int, renderDelay: int)
    requires Keyboard.KEY_W < |ks.down| && c.nextSequence + 1 < U32_LIMIT
    requires c.connectState == Connected && HasLocal(c) && c.config.prediction
    requires c.entities[c.playerId].id == c.playerId
    requires forall k :: 0 <= k < |events| ==> events[k].OtherClientEvent?
    requires Chained(w, c.pending, Local(c)) && Increasing(c.pending)
    requires forall k :: 0 <= k < |c.pending| ==> c.pending[k].input.sequence < c.nextSequence
    ensures var r := OnUpdate(w, c, events, dt, ks, now, renderDelay);
            var input := Input(c.nextSequence, dt, SampleKeys(ks));
            && r.Some? && r.value.1 == [InputPacket(input)]
            && HasLocal(r.value.0) && Local(r.value.0) == ProcessInput(w, Local(c), input)
            && Chained(w, r.value.0.pending, Local(r.value.0)) && Increasing(r.value.0.pending)
            && forall k :: 0 <= k < |r.value.0.pending| ==> r.value.0.pending[k].input.sequence < r.value.0.nextSequence
  {
    NoPacketsNoChange(w, c, events);
    FrameKeepsHistory(w, c, dt, ks);
    var c2 := FrameInput(w, c, dt, ks).value.0;
    if c2.config.interpolation {
      var c3 := Interpolate(c2, now - renderDelay);
      assert c3.entities[c.playerId] == InterpolateEntity(c2.entities[c.playerId], now - renderDelay, c.playerId);
      assert c3.entities[c.playerId] == c2.entities[c.playerId];
    }
  }
}

=== FILE: base.dfy ===
/** Small shared vocabulary: optional values, two-dimensional vectors (sf::Vector2f as reals)
    and the fixed-width integer ranges that the wire format and the sequence counter use. */
module Base {

  /** The conventional Some/None datatype, standing in for nullable pointers and failed reads. */
  datatype Option<T> = None | Some(value: T) {

    /** The wrapped value, or `default` when there is none. */
    function GetOr(default: T): T {
      match this
      case Some(v) => v
      case None => default
    }
  }

  /** A two-component vector of reals; float rounding is not modelled. */
  datatype Vec2 = Vec2(x: real, y: real) {

    function Plus(other: Vec2): Vec2 {
      Vec2(x + other.x, y + other.y)
    }

    function Minus(other: Vec2): Vec2 {
      Vec2(x - other.x, y - other.y)
    }

    function Scale(k: real): Vec2 {
      Vec2(x * k, y * k)
    }
  }

  const Zero: Vec2 := Vec2(0.0, 0.0)

  const U32_LIMIT: nat := 0x1_0000_0000

  predicate IsU32(n: int) {
    0 <= n < U32_LIMIT
  }

  /** The successor of a u32 counter, wrapping to 0 after 2^32 - 1 (C++ unsigned arithmetic). */
  function U32Succ(n: nat): (r: nat)
    requires IsU32(n)
    ensures IsU32(r)
    ensures n + 1 < U32_LIMIT ==> r == n + 1
    ensures n + 1 == U32_LIMIT ==> r == 0
  {
    (n + 1) % U32_LIMIT
  }

  /** Integral conversion of an int to i16: two's-complement wrap-around. */
  function ToI16(i: int): (r: int)
    ensures -0x8000 <= r < 0x8000
    ensures -0x8000 <= i < 0x8000 ==> r == i
    ensures (i - r) % 0x1_0000 == 0
  {
    var m := i % 0x1_0000;
    if m >= 0x8000 then m - 0x1_0000 else m
  }
}

=== FILE: common.dfy ===
/** The movement and tile-collision model shared by the client's prediction and the server's
    simulation: held keys become a velocity change, the velocity is clamped and damped, and a
    collision pass against the tile map moves the entity. Positions and velocities are reals;
    tile coordinates are the float-to-int conversion (truncation toward zero) of position over
    tile size. */
module Common {
  import opened Base

  /** The edge length of a tile in world units. The tile size and the map are defined outside
      the modelled files; the value here is a stand-in. */
  const TILE_SIZE: real := 32.0

  const SPEED: real := 25.0
  const MAX_SPEED: real := 256.0
  const JUMP_IMPULSE: real := -SPEED * 25.0
  const DAMPING_X: real := 0.94
  const DAMPING_Y: real := 0.98
  const GRAVITY: real := 0.35

  /** InputKeyPress: one bit per logical action. */
  const KEY_NONE: bv8 := 0
  const KEY_W: bv8 := 1
  const KEY_A: bv8 := 2
  const KEY_S: bv8 := 4
  const KEY_D: bv8 := 8

  /** One sampled frame of input: u32 sequence number, frame time in seconds, held-key bits. */
  datatype Input = Input(sequence: nat, dt: real, keys: bv8)

  /** An entity's kinematic state; `size` is its footprint, which the collision pass ignores. */
  datatype Transform = Transform(position: Vec2, velocity: Vec2, size: Vec2, grounded: bool)

  const DefaultTransform: Transform := Transform(Zero, Zero, Zero, false)

  predicate Held(keys: bv8, key: bv8) {
    keys & key == key
  }

  /** The tile array: square, `mapSize` tiles a side, stored row by row. */
  datatype TileMap = TileMap(mapSize: nat, cells: seq<int>)

  predicate ValidMap(m: TileMap) {
    |m.cells| == m.mapSize * m.mapSize
  }

  /** Row-major cell index of a tile. */
  function CellIndex(n: nat, x: int, y: int): int {
    y * n + x
  }

  /** In-bounds coordinates address a cell inside the map. */
  lemma {:induction false} CellIndexInBounds(n: nat, x: int, y: int)
    requires 0 <= x < n && 0 <= y < n
    ensures 0 <= CellIndex(n, x, y) < n * n
  {
    assert y * n <= (n - 1) * n by {
      MulMonotone(y, n - 1, n);
    }
    assert (n - 1) * n == n * n - n;
  }

  /** Distinct in-bounds coordinates address distinct cells: the row-major layout is faithful. */
  lemma {:induction false} CellIndexInjective(n: nat, x1: int, y1: int, x2: int, y2: int)
    requires 0 <= x1 < n && 0 <= y1 < n && 0 <= x2 < n && 0 <= y2 < n
    requires CellIndex(n, x1, y1) == CellIndex(n, x2, y2)
    ensures x1 == x2 && y1 == y2
  {
    if y1 < y2 {
      assert (y1 + 1) * n == y1 * n + n;
      MulMonotone(y1 + 1, y2, n);
      assert false;
    } else if y2 < y1 {
      assert (y2 + 1) * n == y2 * n + n;
      MulMonotone(y2 + 1, y1, n);
      assert false;
    }
  }

  lemma MulMonotone(a: int, b: int, n: nat)
    requires a <= b
    ensures a * n <= b * n
  {
    assert b * n - a * n == (b - a) * n;
  }

  /** `get_tile`: 0 outside the map, otherwise the cell at row `y`, column `x`, whose index
      is then always inside the array. */
  function GetTile(m: TileMap, x: int, y: int): (r: int)
    requires ValidMap(m)
    ensures !(0 <= x < m.mapSize && 0 <= y < m.mapSize) ==> r == 0
    ensures 0 <= x < m.mapSize && 0 <= y < m.mapSize ==>
              0 <= CellIndex(m.mapSize, x, y) < |m.cells| && r == m.cells[CellIndex(m.mapSize, x, y)]
  {
    if x < 0 || x >= m.mapSize || y < 0 || y >= m.mapSize then
      0
    else
      CellIndexInBounds(m.mapSize, x, y);
      m.cells[y * m.mapSize + x]
  }

  /** What the collision pass sees of the world: which tiles are solid (a non-zero
      `get_tile`). */
  datatype World = World(solid: (int, int) -> bool)

  /** The world of a tile array: a tile is solid exactly when `get_tile` reports it non-zero. */
  function WorldOf(m: TileMap): (w: World)
    requires ValidMap(m)
    ensures forall x: int, y: int :: w.solid(x, y) <==> GetTile(m, x, y) != 0
  {
    World((x: int, y: int) => GetTile(m, x, y) != 0)
  }

  predicate Occupied(w: World, x: int, y: int) {
    w.solid(x, y)
  }

  /** Float-to-int conversion: truncation toward zero. */
  function Trunc(r: real): (i: int)
    ensures 0.0 <= r ==> 0 <= i && i as real <= r < i as real + 1.0
    ensures r < 0.0 ==> i <= 0 && i as real - 1.0 < r <= i as real
  {
    if r >= 0.0 then r.Floor else -((-r).Floor)
  }

  lemma TruncOfInt(n: int)
    ensures Trunc(n as real) == n
  {
  }

  /** Tile coordinates of an entity's position (`sf::Vector2i{position / TILE_SIZE}`). */
  function TileX(t: Transform): int {
    Trunc(t.position.x / TILE_SIZE)
  }

  function TileY(t: Transform): int {
    Trunc(t.position.y / TILE_SIZE)
  }

  /** The horizontal response is needed when moving right into the next tile or left within a solid one. */
  predicate BlockedX(w: World, t: Transform) {
    (t.velocity.x > 0.0 && Occupied(w, TileX(t) + 1, TileY(t)))
    || (t.velocity.x < 0.0 && Occupied(w, TileX(t), TileY(t)))
  }

  /** Upward motion inside a solid tile is blocked (falling onto one is `grounded`). */
  predicate BlockedUp(w: World, t: Transform) {
    t.velocity.y < 0.0 && Occupied(w, TileX(t), TileY(t))
  }

  /** The horizontal half of the collision pass: new x velocity and candidate x. */
  function RespondX(w: World, t: Transform): (r: (real, real))
    ensures t.velocity.x > 0.0 && Occupied(w, TileX(t) + 1, TileY(t)) ==>
              r == (0.0, TileX(t) as real * TILE_SIZE)
    ensures t.velocity.x < 0.0 && Occupied(w, TileX(t), TileY(t)) ==>
              r == (0.0, TileX(t) as real * TILE_SIZE + TILE_SIZE)
    ensures !BlockedX(w, t) ==> r == (t.velocity.x, t.position.x + t.velocity.x)
  {
    var tx := TileX(t);
    var ty := TileY(t);
    if t.velocity.x > 0.0 then
      if Occupied(w, tx + 1, ty) then (0.0, tx as real * TILE_SIZE) else (t.velocity.x, t.position.x + t.velocity.x)
    else if t.velocity.x < 0.0 then
      if Occupied(w, tx, ty) then (0.0, tx as real * TILE_SIZE + TILE_SIZE) else (t.velocity.x, t.position.x + t.velocity.x)
    else (t.velocity.x, t.position.x + t.velocity.x)
  }

  /** The vertical half of the collision pass: new y velocity (before gravity), candidate y,
      and whether the entity landed. */
  function RespondY(w: World, t: Transform): (r: (real, real, bool))
    ensures r.2 <==> t.velocity.y > 0.0 && Occupied(w, TileX(t), TileY(t) + 1)
    ensures r.2 ==> r.0 == 0.0 && r.1 == TileY(t) as real * TILE_SIZE
    ensures BlockedUp(w, t) ==> r == (0.0, TileY(t) as real * TILE_SIZE + TILE_SIZE, false)
    ensures !r.2 && !BlockedUp(w, t) ==> r == (t.velocity.y, t.position.y + t.velocity.y, false)
  {
    var tx := TileX(t);
    var ty := TileY(t);
    if t.velocity.y > 0.0 then
      if Occupied(w, tx, ty + 1) then (0.0, ty as real * TILE_SIZE, true) else (t.velocity.y, t.position.y + t.velocity.y, false)
    else if t.velocity.y < 0.0 then
      if Occupied(w, tx, ty) then (0.0, ty as real * TILE_SIZE + TILE_SIZE, false) else (t.velocity.y, t.position.y + t.velocity.y, false)
    else (t.velocity.y, t.position.y + t.velocity.y, false)
  }

  /** `apply_map_collisions`: the candidate position is position + velocity; each axis whose
      probed tile is solid loses its velocity and snaps to the tile edge; landing sets
      `grounded`; gravity is added to the velocity only when not grounded, after the new
      position is fixed, so it does not move the entity in this pass. */
  function ApplyMapCollisions(w: World, t: Transform): (r: Transform)
    ensures r.size == t.size
    ensures t.velocity.x > 0.0 && Occupied(w, TileX(t) + 1, TileY(t)) ==>
              r.velocity.x == 0.0 && r.position.x == TileX(t) as real * TILE_SIZE
    ensures t.velocity.x < 0.0 && Occupied(w, TileX(t), TileY(t)) ==>
              r.velocity.x == 0.0 && r.position.x == TileX(t) as real * TILE_SIZE + TILE_SIZE
    ensures !BlockedX(w, t) ==> r.velocity.x == t.velocity.x && r.position.x == t.position.x + t.velocity.x
    ensures r.grounded <==> t.velocity.y > 0.0 && Occupied(w, TileX(t), TileY(t) + 1)
    ensures r.grounded ==> r.velocity.y == 0.0 && r.position.y == TileY(t) as real * TILE_SIZE
    ensures BlockedUp(w, t) ==>
              r.velocity.y == GRAVITY && r.position.y == TileY(t) as real * TILE_SIZE + TILE_SIZE
    ensures !r.grounded && !BlockedUp(w, t) ==>
              r.velocity.y == t.velocity.y + GRAVITY && r.position.y == t.position.y + t.velocity.y
  {
    var (vx, nx) := RespondX(w, t);
    var (vy, ny, grounded) := RespondY(w, t);
    Transform(Vec2(nx, ny), Vec2(vx, if grounded then vy else vy + GRAVITY), t.size, grounded)
  }

  /** The four logical actions a key bitset holds. */
  datatype Actions = Actions(up: bool, left: bool, down: bool, right: bool)

  /** Each action is held exactly when its own bit is set; bits 4 to 7 carry no action. */
  function DecodeKeys(keys: bv8): (a: Actions)
    ensures a.up <==> keys & 0x01 != 0
    ensures a.left <==> keys & 0x02 != 0
    ensures a.down <==> keys & 0x04 != 0
    ensures a.right <==> keys & 0x08 != 0
    ensures DecodeKeys(keys & 0x0F) == a
  {
    Actions(Held(keys, KEY_W), Held(keys, KEY_A), Held(keys, KEY_S), Held(keys, KEY_D))
  }

  /** The velocity change, per second, that the held actions ask for: W jumps only from the
      ground, S pushes down, and A and D push left and right and cancel when held together. */
  function Impulse(a: Actions, grounded: bool): (c: Vec2)
    ensures a.left == a.right ==> c.x == 0.0
    ensures a.right && !a.left ==> c.x == SPEED
    ensures a.left && !a.right ==> c.x == -SPEED
    ensures c.y < 0.0 <==> a.up && grounded
    ensures a.up && grounded ==> c.y == JUMP_IMPULSE + (if a.down then SPEED else 0.0)
    ensures !(a.up && grounded) ==> c.y == (if a.down then SPEED else 0.0)
  {
    Vec2((if a.left then -SPEED else 0.0) + (if a.right then SPEED else 0.0),
         (if a.up && grounded then JUMP_IMPULSE else 0.0) + (if a.down then SPEED else 0.0))
  }

  function Clamp(v: real, lo: real, hi: real): (r: real)
    requires lo <= hi
    ensures lo <= r <= hi
    ensures lo <= v <= hi ==> r == v
    ensures v < lo ==> r == lo
    ensures hi < v ==> r == hi
  {
    if v < lo then lo else if hi < v then hi else v
  }

  /** The horizontal velocity after clamping to the maximum speed and damping. */
  function DampX(v: real): (r: real)
    ensures -DAMPING_X * MAX_SPEED <= r <= DAMPING_X * MAX_SPEED
    ensures -MAX_SPEED <= v <= MAX_SPEED ==> r == DAMPING_X * v
    ensures MAX_SPEED < v ==> r == DAMPING_X * MAX_SPEED
    ensures v < -MAX_SPEED ==> r == -DAMPING_X * MAX_SPEED
    ensures 0.0 <= v ==> 0.0 <= r
    ensures v <= 0.0 ==> r <= 0.0
    ensures v == 0.0 ==> r == 0.0
  {
    Clamp(v, -MAX_SPEED, MAX_SPEED) * DAMPING_X
  }

  /** The vertical velocity after clamping to the maximum speed and damping. */
  function DampY(v: real): (r: real)
    ensures -DAMPING_Y * MAX_SPEED <= r <= DAMPING_Y * MAX_SPEED
    ensures -MAX_SPEED <= v <= MAX_SPEED ==> r == DAMPING_Y * v
    ensures MAX_SPEED < v ==> r == DAMPING_Y * MAX_SPEED
    ensures v < -MAX_SPEED ==> r == -DAMPING_Y * MAX_SPEED
    ensures 0.0 <= v ==> 0.0 <= r
    ensures v <= 0.0 ==> r <= 0.0
    ensures v == 0.0 ==> r == 0.0
  {
    Clamp(v, -MAX_SPEED, MAX_SPEED) * DAMPING_Y
  }

  /** The velocity after the held keys' change, scaled by the frame time, is added. */
  function Pushed(t: Transform, input: Input): Vec2 {
    t.velocity.Plus(Impulse(DecodeKeys(input.keys), t.grounded).Scale(input.dt))
  }

  /** The part of `process_input_for_player` before the collision pass: the key change scaled
      by the frame time is added to the velocity, which is then clamped to the maximum speed and
      damped per axis. Position and flags are untouched. */
  function Accelerate(t: Transform, input: Input): (r: Transform)
    ensures r.position == t.position && r.size == t.size && r.grounded == t.grounded
    ensures -DAMPING_X * MAX_SPEED <= r.velocity.x <= DAMPING_X * MAX_SPEED
    ensures -DAMPING_Y * MAX_SPEED <= r.velocity.y <= DAMPING_Y * MAX_SPEED
    ensures var v := Pushed(t, input);
            && (-MAX_SPEED <= v.x <= MAX_SPEED ==> r.velocity.x == DAMPING_X * v.x)
            && (MAX_SPEED < v.x ==> r.velocity.x == DAMPING_X * MAX_SPEED)
            && (v.x < -MAX_SPEED ==> r.velocity.x == -DAMPING_X * MAX_SPEED)
            && (-MAX_SPEED <= v.y <= MAX_SPEED ==> r.velocity.y == DAMPING_Y * v.y)
            && (MAX_SPEED < v.y ==> r.velocity.y == DAMPING_Y * MAX_SPEED)
            && (v.y < -MAX_SPEED ==> r.velocity.y == -DAMPING_Y * MAX_SPEED)
  {
    var v := Pushed(t, input);
    t.(velocity := Vec2(DampX(v.x), DampY(v.y)))
  }

  /** `process_input_for_player`: accelerate, then exactly one collision pass. Its result is a
      function of the transform, the input and the map alone. */
  function ProcessInput(w: World, t: Transform, input: Input): (r: Transform)
    ensures r.size == t.size
  {
    ApplyMapCollisions(w, Accelerate(t, input))
  }

  /** The client's prediction of a run of inputs: each one processed in order. */
  function Advance(w: World, t: Transform, inputs: seq<Input>): (r: Transform)
    ensures r.size == t.size
    ensures |inputs| == 1 ==> r == ProcessInput(w, t, inputs[0])
    decreases |inputs|
  {
    if inputs == [] then t else Advance(w, ProcessInput(w, t, inputs[0]), inputs[1..])
  }

  /** Advancing over a concatenation is advancing over each part in turn. */
  lemma {:induction false} AdvanceAppend(w: World, t: Transform, xs: seq<Input>, ys: seq<Input>)
    ensures Advance(w, t, xs + ys) == Advance(w, Advance(w, t, xs), ys)
    decreases |xs|
  {
    if xs != [] {
      assert (xs + ys)[0] == xs[0];
      assert (xs + ys)[1..] == xs[1..] + ys;
      AdvanceAppend(w, ProcessInput(w, t, xs[0]), xs[1..], ys);
    } else {
      assert xs + ys == ys;
    }
  }

  // ---------------------------------------------------------------------------------------
  // Properties of the movement model

  lemma DecodeWithoutW(k: bv8)
    ensures DecodeKeys(k & !KEY_W) == DecodeKeys(k).(up := false)
  {
  }

  lemma DecodeWithAD(k: bv8)
    ensures DecodeKeys(k | KEY_A | KEY_D) == DecodeKeys(k).(left := true, right := true)
    ensures DecodeKeys(k & !(KEY_A | KEY_D)) == DecodeKeys(k).(left := false, right := false)
  {
  }

  /** The jump key changes nothing unless the entity is grounded. */
  lemma JumpNeedsGround(w: World, t: Transform, input: Input)
    requires !t.grounded
    ensures ProcessInput(w, t, input) == ProcessInput(w, t, input.(keys := input.keys & !KEY_W))
  {
    var other := input.(keys := input.keys & !KEY_W);
    DecodeWithoutW(input.keys);
    ImpulseIgnoresUpInAir(DecodeKeys(input.keys));
    assert Pushed(t, input) == Pushed(t, other);
  }

  lemma ImpulseIgnoresUpInAir(a: Actions)
    ensures Impulse(a, false) == Impulse(a.(up := false), false)
  {
  }

  /** Holding A and D together moves exactly as holding neither. */
  lemma OpposedKeysCancel(w: World, t: Transform, input: Input)
    ensures ProcessInput(w, t, input.(keys := input.keys | KEY_A | KEY_D))
         == ProcessInput(w, t, input.(keys := input.keys & !(KEY_A | KEY_D)))
  {
    var both := input.(keys := input.keys | KEY_A | KEY_D);
    var neither := input.(keys := input.keys & !(KEY_A | KEY_D));
    DecodeWithAD(input.keys);
    ImpulseOpposedCancel(DecodeKeys(input.keys), t.grounded);
    assert Pushed(t, both) == Pushed(t, neither);
  }

  lemma ImpulseOpposedCancel(a: Actions, grounded: bool)
    ensures Impulse(a.(left := true, right := true), grounded) == Impulse(a.(left := false, right := false), grounded)
  {
  }

  /** An entity standing exactly on the top edge of a solid tile row `ty + 1`, not moving
      sideways and not falling upward. */
  predicate OnGround(w: World, t: Transform, ty: int) {
    && t.position.y == ty as real * TILE_SIZE
    && t.velocity.x == 0.0
    && 0.0 <= t.velocity.y
    && Occupied(w, TileX(t), ty + 1)
  }

  /** Frames that neither jump nor steer sideways, with a non-negative frame time. */
  predicate Idle(input: Input) {
    !Held(input.keys, KEY_W) && !Held(input.keys, KEY_A) && !Held(input.keys, KEY_D) && 0.0 <= input.dt
  }

  /** One collision pass keeps a standing entity exactly where it is. */
  lemma CollisionKeepsStanding(w: World, t: Transform, ty: int)
    requires OnGround(w, t, ty)
    ensures OnGround(w, ApplyMapCollisions(w, t), ty)
    ensures ApplyMapCollisions(w, t).position == t.position
  {
    assert t.position.y / TILE_SIZE == ty as real;
    TruncOfInt(ty);
  }

  /** An idle frame leaves the horizontal velocity as it was and never pushes upward. */
  lemma IdlePush(t: Transform, input: Input)
    requires Idle(input)
    ensures Pushed(t, input).x == t.velocity.x
    ensures t.velocity.y <= Pushed(t, input).y
  {
    IdleImpulse(t.velocity, DecodeKeys(input.keys), t.grounded, input.dt);
  }

  lemma IdleImpulse(v: Vec2, a: Actions, grounded: bool, dt: real)
    requires !a.up && !a.left && !a.right && 0.0 <= dt
    ensures v.Plus(Impulse(a, grounded).Scale(dt)).x == v.x
    ensures v.y <= v.Plus(Impulse(a, grounded).Scale(dt)).y
  {
    var c := Impulse(a, grounded);
    assert c.x == 0.0 && 0.0 <= c.y;
    DownwardScale(c, dt);
    var s := c.Scale(dt);
    assert v.Plus(s) == Vec2(v.x + s.x, v.y + s.y);
  }

  lemma DownwardScale(c: Vec2, k: real)
    requires c.x == 0.0 && 0.0 <= c.y && 0.0 <= k
    ensures c.Scale(k).x == 0.0 && 0.0 <= c.Scale(k).y
  {
  }

  /** One idle prediction step keeps a standing entity exactly where it is. */
  lemma IdleStepKeepsStanding(w: World, t: Transform, input: Input, ty: int)
    requires OnGround(w, t, ty) && Idle(input)
    ensures OnGround(w, ProcessInput(w, t, input), ty)
    ensures ProcessInput(w, t, input).position == t.position
  {
    IdlePush(t, input);
    var a := Accelerate(t, input);
    assert a.position == t.position;
    assert a.velocity.x == 0.0 && 0.0 <= a.velocity.y;
    assert TileX(a) == TileX(t);
    CollisionKeepsStanding(w, a, ty);
  }

  /** An entity exactly on the top edge of a tile row is in that row. */
  lemma TileYOnEdge(t: Transform, ty: int)
    requires t.position.y == ty as real * TILE_SIZE
    ensures TileY(t) == ty
  {
    assert t.position.y / TILE_SIZE == ty as real;
    TruncOfInt(ty);
  }

  const NoActions: Actions := Actions(false, false, false, false)

  /** A bitset with none of the four keys decodes to no action at all. */
  lemma NoKeysDecode(keys: bv8)
    requires !Held(keys, KEY_W) && !Held(keys, KEY_A) && !Held(keys, KEY_S) && !Held(keys, KEY_D)
    ensures DecodeKeys(keys) == NoActions
  {
  }

  /** Without any action the velocity change is zero, whatever the frame time. */
  lemma NoActionsNoPush(v: Vec2, grounded: bool, dt: real)
    ensures v.Plus(Impulse(NoActions, grounded).Scale(dt)) == v
  {
    var c := Impulse(NoActions, grounded);
    assert c == Zero;
    assert c.Scale(dt) == Zero;
  }

  /** Collision containment: an entity standing on solid ground, fed any number of idle
      inputs, never leaves the tile edge and never sinks into the solid row. */
  lemma {:induction false} StandingEntityStays(w: World, t: Transform, inputs: seq<Input>, ty: int)
    requires OnGround(w, t, ty)
    requires forall i :: 0 <= i < |inputs| ==> Idle(inputs[i])
    ensures OnGround(w, Advance(w, t, inputs), ty)
    ensures Advance(w, t, inputs).position == t.position
    decreases |inputs|
  {
    if inputs != [] {
      var next := ProcessInput(w, t, inputs[0]);
      IdleStepKeepsStanding(w, t, inputs[0], ty);
      assert forall i :: 0 <= i < |inputs[1..]| ==> inputs[1..][i] == inputs[i + 1];
      StandingEntityStays(w, next, inputs[1..], ty);
      assert Advance(w, t, inputs) == Advance(w, next, inputs[1..]);
    }
  }
}

=== FILE: keyboard.dfy ===
/** The client's keyboard state: one "held" flag per SFML key code, driven by press and
    release events. */
module Keyboard {

  /** sf::Keyboard key codes the client reads (`Unknown` is -1; letters count from A = 0). */
  const UNKNOWN: int := -1
  const KEY_A: int := 0
  const KEY_D: int := 3
  const KEY_S: int := 18
  const KEY_W: int := 22

  /** The window events the keyboard reacts to; every other event type is `OtherEvent`. */
  datatype Event = KeyPressed(code: int) | KeyReleased(code: int) | OtherEvent

  /** One flag per key code, `true` while the key is held. */
  datatype KeyState = KeyState(down: seq<bool>)

  /** SFML reports key codes in `-1 .. KeyCount - 1`; the event type guarantees it. */
  predicate WellFormed(ks: KeyState, e: Event) {
    e.OtherEvent? || -1 <= e.code < |ks.down|
  }

  /** Every key starts up. */
  function New(keyCount: nat): (ks: KeyState)
    ensures |ks.down| == keyCount
    ensures forall k :: 0 <= k < keyCount ==> !ks.down[k]
  {
    KeyState(seq(keyCount, _ => false))
  }

  /** A press sets its key, a release clears it; the Unknown code and other events are ignored. */
  function Update(ks: KeyState, e: Event): (r: KeyState)
    requires WellFormed(ks, e)
    ensures |r.down| == |ks.down|
    ensures e.KeyPressed? && e.code != UNKNOWN ==>
              r.down[e.code] && forall k :: 0 <= k < |ks.down| && k != e.code ==> r.down[k] == ks.down[k]
    ensures e.KeyReleased? && e.code != UNKNOWN ==>
              !r.down[e.code] && forall k :: 0 <= k < |ks.down| && k != e.code ==> r.down[k] == ks.down[k]
    ensures e.OtherEvent? || e.code == UNKNOWN ==> r == ks
  {
    match e
    case KeyReleased(code) =>
      if code == UNKNOWN then ks else KeyState(ks.down[code := false])
    case KeyPressed(code) =>
      if code == UNKNOWN then ks else KeyState(ks.down[code := true])
    case OtherEvent => ks
  }

  /** Whether `key` is held; on a new keyboard no key is. */
  function IsKeyDown(ks: KeyState, key: int): (r: bool)
    requires 0 <= key < |ks.down|
    ensures ks == New(|ks.down|) ==> !r
  {
    ks.down[key]
  }

  /** Every key up again, whatever was held. */
  function ResetKeys(ks: KeyState): (r: KeyState)
    ensures r == New(|ks.down|)
    ensures forall k :: 0 <= k < |ks.down| ==> !IsKeyDown(r, k)
  {
    KeyState(seq(|ks.down|, _ => false))
  }

  /** After a press of `k`, exactly `k` and the keys already held read as down. */
  lemma PressThenQuery(ks: KeyState, k: int, j: int)
    requires 0 <= k < |ks.down| && 0 <= j < |ks.down|
    ensures IsKeyDown(Update(ks, KeyPressed(k)), j) == (j == k || IsKeyDown(ks, j))
  {
  }

  /** Pressing and then releasing a key that was up restores the previous state exactly. */
  lemma PressReleaseRestores(ks: KeyState, k: int)
    requires 0 <= k < |ks.down| && !IsKeyDown(ks, k)
    ensures Update(Update(ks, KeyPressed(k)), KeyReleased(k)) == ks
  {
    assert Update(Update(ks, KeyPressed(k)), KeyReleased(k)).down == ks.down;
  }
}

=== FILE: network_message.dfy ===
/** The message envelope shared by both directions: a message is a payload whose first item is
    the u16 type tag, plus the type read back when a received packet is decoded. */
module NetworkMessage {
  import opened Base
  import opened Packet

  /** Client-to-server message types (an enum with u8 underlying type). */
  datatype ToServerMessageType = ToServerNone | ToServerText | ToServerInput {
    function Code(): nat {
      match this
      case ToServerNone => 0
      case ToServerText => 1
      case ToServerInput => 2
    }
  }

  /** Server-to-client message types (an enum with u8 underlying type). */
  datatype ToClientMessage = ToClientNone | ClientInfo | ToClientText | PlayerJoin | PlayerLeave | Snapshot {
    function Code(): nat {
      match this
      case ToClientNone => 0
      case ClientInfo => 1
      case ToClientText => 2
      case PlayerJoin => 3
      case PlayerLeave => 4
      case Snapshot => 5
    }
  }

  /** The enumerator a received code names, or None for a value no enumerator has (such a
      message falls through to the `default` branch of every dispatch). */
  function ToServerFromCode(code: nat): (r: Option<ToServerMessageType>)
    ensures r.Some? ==> r.value.Code() == code
    ensures code <= 2 ==> r.Some?
  {
    if code == 0 then Some(ToServerNone)
    else if code == 1 then Some(ToServerText)
    else if code == 2 then Some(ToServerInput)
    else None
  }

  function ToClientFromCode(code: nat): (r: Option<ToClientMessage>)
    ensures r.Some? ==> r.value.Code() == code
    ensures code <= 5 ==> r.Some?
  {
    if code == 0 then Some(ToClientNone)
    else if code == 1 then Some(ClientInfo)
    else if code == 2 then Some(ToClientText)
    else if code == 3 then Some(PlayerJoin)
    else if code == 4 then Some(PlayerLeave)
    else if code == 5 then Some(Snapshot)
    else None
  }

  /** Every enumerator's code names that enumerator again, so the codes are pairwise distinct. */
  lemma CodesRoundTrip(s: ToServerMessageType, c: ToClientMessage)
    ensures ToServerFromCode(s.Code()) == Some(s)
    ensures ToClientFromCode(c.Code()) == Some(c)
  {
  }

  const NONE_CODE: nat := 0

  /** ENet packet flags; `to_enet_packet` uses the reliable flag unless told otherwise. */
  const ENET_PACKET_FLAG_RELIABLE: nat := 1
  const ENET_PACKET_FLAG_UNSEQUENCED: nat := 2
  const DEFAULT_FLAGS: nat := ENET_PACKET_FLAG_RELIABLE

  /** A message: its payload and the type code read on receipt (`None` until then). */
  datatype Message = Message(payload: Payload, messageType: nat)

  /** A transport packet: a copy of the payload's data and the delivery flags. */
  datatype EnetPacket = EnetPacket(data: seq<Field>, flags: nat)

  /** Constructing from a type writes exactly its code as one u16; the type field itself is not
      assigned by this constructor and keeps its `None` initialiser. */
  function FromType(code: nat): (m: Message)
    requires code < 256
    ensures m.payload.data == [U16(code)]
    ensures m.payload.readPos == 0 && m.payload.valid
    ensures m.messageType == NONE_CODE
  {
    Message(Write(Empty, [U16(code)]), NONE_CODE)
  }

  /** The message of type `code` with `body` written after the tag. */
  function Compose(code: nat, body: seq<Field>): (m: Message)
    requires code < 256
    ensures m.payload.data == [U16(code)] + body
  {
    var m := FromType(code);
    m.(payload := Write(m.payload, body))
  }

  function ToEnetPacket(m: Message, flags: nat): (p: EnetPacket)
    ensures p.data == m.payload.data && p.flags == flags
  {
    EnetPacket(m.payload.data, flags)
  }

  /** Decoding a received packet: no packet gives type None and an empty payload; otherwise the
      data is appended and the leading u16 is read and converted to the u8 enum. A packet whose
      first field is not a u16 has no result. When it is shorter than two bytes the tag variable
      is cast while still uninitialised, which is undefined; a longer one would have its first
      two bytes reinterpreted as the tag, which typed fields do not represent. */
  function Decode(packet: Option<EnetPacket>): (r: Option<Message>)
    ensures packet.None? ==> r == Some(Message(Empty, NONE_CODE))
    ensures packet.Some? ==> (r.Some? <==> |packet.value.data| > 0 && packet.value.data[0].U16?)
    ensures packet.Some? && r.Some? ==>
              && r.value.messageType == packet.value.data[0].word % 256
              && r.value.payload == Payload(packet.value.data, 1, true)
  {
    match packet
    case None => Some(Message(Empty, NONE_CODE))
    case Some(p) =>
      var (payload, tag) := ReadU16(Write(Empty, p.data));
      if tag.Some? then Some(Message(payload, tag.value % 256)) else None
  }

  /** Round trip: the packet built from a composed message decodes to the same type, with the
      read position just past the tag so that the body is read next, whatever the flags. */
  lemma DecodeComposed(code: nat, body: seq<Field>, flags: nat)
    requires code < 256
    ensures Decode(Some(ToEnetPacket(Compose(code, body), flags))) == Some(Message(Payload([U16(code)] + body, 1, true), code))
  {
  }
}

=== FILE: packet.dfy ===
/** The payload container the messages are serialised into (sf::Packet), abstracted from bytes
    to a sequence of typed fields. A payload keeps everything written to it, a read position, and
    a validity flag: a read past the end, or of a field of another type, fails, clears the flag
    and leaves the target untouched, and every read after a failure fails too. */
module Packet {
  import opened Base

  datatype Field =
    | U8(byte: bv8)
    | Bool(flag: bool)
    | I16(short: int)
    | U16(word: nat)
    | U32(dword: nat)
    | F32(float: real)
    | Text(text: string)

  datatype Kind = KU8 | KBool | KI16 | KU16 | KU32 | KF32 | KText

  function KindOf(f: Field): Kind {
    match f
    case U8(_) => KU8
    case Bool(_) => KBool
    case I16(_) => KI16
    case U16(_) => KU16
    case U32(_) => KU32
    case F32(_) => KF32
    case Text(_) => KText
  }

  datatype Payload = Payload(data: seq<Field>, readPos: nat, valid: bool)

  const Empty: Payload := Payload([], 0, true)

  /** `payload << f` and `payload.append(...)`: appends, never moves the read position. */
  function Write(p: Payload, fields: seq<Field>): (r: Payload)
    ensures |r.data| == |p.data| + |fields|
    ensures r.data[..|p.data|] == p.data && r.data[|p.data|..] == fields
    ensures r.readPos == p.readPos && r.valid == p.valid
  {
    p.(data := p.data + fields)
  }

  /** One typed read: the next field when the payload is still valid, one is left and it has
      the requested kind; otherwise the payload turns invalid and nothing is read. */
  function Read(p: Payload, kind: Kind): (r: (Payload, Option<Field>))
    ensures r.1.Some? <==> p.valid && p.readPos < |p.data| && KindOf(p.data[p.readPos]) == kind
    ensures r.1.Some? ==> r.1.value == p.data[p.readPos] && r.0 == p.(readPos := p.readPos + 1)
    ensures r.1.None? ==> r.0 == p.(valid := false)
    ensures r.1.Some? ==> KindOf(r.1.value) == kind
  {
    if p.valid && p.readPos < |p.data| && KindOf(p.data[p.readPos]) == kind then
      (p.(readPos := p.readPos + 1), Some(p.data[p.readPos]))
    else
      (p.(valid := false), None)
  }

  function ReadU8(p: Payload): (Payload, Option<bv8>) {
    var (q, f) := Read(p, KU8);
    (q, if f.Some? then Some(f.value.byte) else None)
  }

  function ReadBool(p: Payload): (Payload, Option<bool>) {
    var (q, f) := Read(p, KBool);
    (q, if f.Some? then Some(f.value.flag) else None)
  }

  function ReadI16(p: Payload): (Payload, Option<int>) {
    var (q, f) := Read(p, KI16);
    (q, if f.Some? then Some(f.value.short) else None)
  }

  function ReadU16(p: Payload): (Payload, Option<nat>) {
    var (q, f) := Read(p, KU16);
    (q, if f.Some? then Some(f.value.word) else None)
  }

  function ReadU32(p: Payload): (Payload, Option<nat>) {
    var (q, f) := Read(p, KU32);
    (q, if f.Some? then Some(f.value.dword) else None)
  }

  function ReadF32(p: Payload): (Payload, Option<real>) {
    var (q, f) := Read(p, KF32);
    (q, if f.Some? then Some(f.value.float) else None)
  }

  function ReadText(p: Payload): (Payload, Option<string>) {
    var (q, f) := Read(p, KText);
    (q, if f.Some? then Some(f.value.text) else None)
  }

  /** Once a read has failed, every later read fails and changes nothing. */
  lemma InvalidStaysInvalid(p: Payload, kind: Kind)
    requires !p.valid
    ensures Read(p, kind) == (p, None)
  {
  }

  /** The field at the read position comes back when read with its own kind. */
  lemma ReadWritten(p: Payload, f: Field)
    requires p.valid && p.readPos < |p.data| && p.data[p.readPos] == f
    ensures Read(p, KindOf(f)) == (p.(readPos := p.readPos + 1), Some(f))
  {
  }
}

=== FILE: protocol.dfy ===
/** The bodies written after the type tag: the client's input message and the server's
    snapshot, one fixed-layout record per entity, together with the reads the receiving side
    performs on them. A read that fails leaves its target as it was, so every reader takes the
    values its targets held before the read. */
module Protocol {
  import opened Base
  import opened Packet
  import opened NetworkMessage
  import opened Common

  /** One entity's entry in a snapshot: i16 id, u32 last processed input sequence, position,
      active flag. */
  datatype Record = Record(id: int, lastProcessed: nat, position: Vec2, active: bool)

  const RECORD_FIELDS: nat := 5

  function RecordFields(r: Record): (fs: seq<Field>)
    ensures |fs| == RECORD_FIELDS
  {
    [I16(r.id), U32(r.lastProcessed), F32(r.position.x), F32(r.position.y), Bool(r.active)]
  }

  /** The snapshot body: the records one after the other, in roster order. */
  function SnapshotBody(rs: seq<Record>): (fs: seq<Field>)
    ensures |fs| == RECORD_FIELDS * |rs|
  {
    if rs == [] then [] else RecordFields(rs[0]) + SnapshotBody(rs[1..])
  }

  /** Record `k` of a snapshot body occupies the five fields starting at `5 * k`. */
  lemma {:induction false} SnapshotBodyAt(rs: seq<Record>, k: nat)
    requires k < |rs|
    ensures RECORD_FIELDS * k + RECORD_FIELDS <= |SnapshotBody(rs)|
    ensures SnapshotBody(rs)[RECORD_FIELDS * k .. RECORD_FIELDS * k + RECORD_FIELDS] == RecordFields(rs[k])
    decreases k
  {
    if k > 0 {
      SnapshotBodyAt(rs[1..], k - 1);
      var tail := SnapshotBody(rs[1..]);
      assert SnapshotBody(rs) == RecordFields(rs[0]) + tail;
      assert SnapshotBody(rs)[RECORD_FIELDS * k .. RECORD_FIELDS * k + RECORD_FIELDS]
          == tail[RECORD_FIELDS * (k - 1) .. RECORD_FIELDS * (k - 1) + RECORD_FIELDS];
    }
  }

  /** `payload >> id >> input_sequence >> position.x >> position.y >> active` on the client:
      the id and the active flag are read straight into the entity, so they keep `id0` and
      `active0` when their read fails; the sequence and the position start at zero. */
  function ReadRecord(p: Payload, id0: int, active0: bool): (r: (Payload, Record))
    ensures r.0.data == p.data
    ensures r.0.valid ==> p.valid && r.0.readPos == p.readPos + RECORD_FIELDS
    ensures !p.valid ==> r == (p, Record(id0, 0, Zero, active0))
  {
    var (p1, id) := ReadI16(p);
    var (p2, sq) := ReadU32(p1);
    var (p3, x) := ReadF32(p2);
    var (p4, y) := ReadF32(p3);
    var (p5, act) := ReadBool(p4);
    (p5, Record(id.GetOr(id0), sq.GetOr(0), Vec2(x.GetOr(0.0), y.GetOr(0.0)), act.GetOr(active0)))
  }

  /** A valid payload positioned at a written record reads back exactly that record, whatever
      the entity held before, and moves past it. */
  lemma ReadRecordWritten(p: Payload, r: Record, id0: int, active0: bool)
    requires p.valid && p.readPos + RECORD_FIELDS <= |p.data|
    requires p.data[p.readPos .. p.readPos + RECORD_FIELDS] == RecordFields(r)
    ensures ReadRecord(p, id0, active0) == (p.(readPos := p.readPos + RECORD_FIELDS), r)
  {
    var fs := RecordFields(r);
    assert p.data[p.readPos] == fs[0];
    assert p.data[p.readPos + 1] == fs[1];
    assert p.data[p.readPos + 2] == fs[2];
    assert p.data[p.readPos + 3] == fs[3];
    assert p.data[p.readPos + 4] == fs[4];
  }

  /** Reading from an exhausted or failed payload changes nothing in the entity: the id and the
      active flag keep their values and the sequence and position read as zero. */
  lemma ReadRecordPastEnd(p: Payload, id0: int, active0: bool)
    requires !p.valid || p.readPos >= |p.data|
    ensures ReadRecord(p, id0, active0) == (p.(valid := false), Record(id0, 0, Zero, active0))
  {
  }

  /** The client's records read in roster order from `p`, entity `i` keeping `ids[i]` and
      `actives[i]` when its reads fail. */
  function ReadRecords(p: Payload, ids: seq<int>, actives: seq<bool>): (r: (Payload, seq<Record>))
    requires |ids| == |actives|
    ensures |r.1| == |ids|
    decreases |ids|
  {
    if ids == [] then (p, [])
    else
      var (q, rec) := ReadRecord(p, ids[0], actives[0]);
      var (q', rest) := ReadRecords(q, ids[1..], actives[1..]);
      (q', [rec] + rest)
  }

  /** A slice holding `a + b` holds `a` and then `b`. */
  lemma SliceOfConcat(d: seq<Field>, pos: nat, a: seq<Field>, b: seq<Field>)
    requires pos + |a| + |b| <= |d| && d[pos .. pos + |a| + |b|] == a + b
    ensures d[pos .. pos + |a|] == a
    ensures d[pos + |a| .. pos + |a| + |b|] == b
  {
    var s := d[pos .. pos + |a| + |b|];
    assert d[pos .. pos + |a|] == s[..|a|];
    assert d[pos + |a| .. pos + |a| + |b|] == s[|a|..];
    assert (a + b)[..|a|] == a && (a + b)[|a|..] == b;
  }

  /** A payload positioned at a written snapshot body reads its first record back and is left
      positioned at the body of the remaining records. */
  lemma SnapshotBodyHead(p: Payload, rs: seq<Record>, id0: int, active0: bool)
    requires rs != [] && p.valid && p.readPos + |SnapshotBody(rs)| <= |p.data|
    requires p.data[p.readPos .. p.readPos + |SnapshotBody(rs)|] == SnapshotBody(rs)
    ensures ReadRecord(p, id0, active0) == (p.(readPos := p.readPos + RECORD_FIELDS), rs[0])
    ensures var q := p.readPos + RECORD_FIELDS;
            q + |SnapshotBody(rs[1..])| <= |p.data| && p.data[q .. q + |SnapshotBody(rs[1..])|] == SnapshotBody(rs[1..])
  {
    var head := RecordFields(rs[0]);
    var tail := SnapshotBody(rs[1..]);
    assert SnapshotBody(rs) == head + tail;
    SliceOfConcat(p.data, p.readPos, head, tail);
    ReadRecordWritten(p, rs[0], id0, active0);
  }

  /** Round trip of a snapshot body: records written by the server come back unchanged on the
      client, one per entity, when both sides hold the same number of entities. */
  lemma {:induction false} ReadSnapshotBody(p: Payload, rs: seq<Record>, ids: seq<int>, actives: seq<bool>)
    requires |ids| == |actives| == |rs|
    requires p.valid && p.readPos + |SnapshotBody(rs)| <= |p.data|
    requires p.data[p.readPos .. p.readPos + |SnapshotBody(rs)|] == SnapshotBody(rs)
    ensures ReadRecords(p, ids, actives).1 == rs
    ensures ReadRecords(p, ids, actives).0 == p.(readPos := p.readPos + |SnapshotBody(rs)|)
    decreases |rs|
  {
    if rs != [] {
      SnapshotBodyHead(p, rs, ids[0], actives[0]);
      var q := p.(readPos := p.readPos + RECORD_FIELDS);
      ReadSnapshotBody(q, rs[1..], ids[1..], actives[1..]);
      assert ReadRecords(p, ids, actives) == (ReadRecords(q, ids[1..], actives[1..]).0, [rs[0]] + rs[1..]);
    }
  }

  /** `payload << sequence << dt << keys` on the client. */
  function InputBody(i: Input): (fs: seq<Field>)
    ensures |fs| == 3
  {
    [U32(i.sequence), F32(i.dt), U8(i.keys)]
  }

  /** The client's input message: the input tag, then the body, sent reliably. */
  function InputPacket(input: Input): EnetPacket {
    ToEnetPacket(Compose(ToServerInput.Code(), InputBody(input)), DEFAULT_FLAGS)
  }

  /** `payload >> last_processed >> dt >> keys` on the server: the sequence goes into the
      player's last processed sequence (kept as `last0` when the read fails) and is not stored
      in the buffered input, whose sequence stays 0; dt and keys default to 0. */
  function ReadInputBody(p: Payload, last0: nat): (r: (Payload, nat, Input))
    ensures r.0.data == p.data && r.2.sequence == 0
    ensures r.0.valid ==> p.valid && r.0.readPos == p.readPos + 3
    ensures !p.valid ==> r == (p, last0, Input(0, 0.0, KEY_NONE))
  {
    var (p1, sq) := ReadU32(p);
    var (p2, dt) := ReadF32(p1);
    var (p3, keys) := ReadU8(p2);
    (p3, sq.GetOr(last0), Input(0, dt.GetOr(0.0), keys.GetOr(KEY_NONE)))
  }

  /** Round trip of the input body: the server recovers the client's sequence, frame time and
      keys; only the sequence number inside the buffered input is lost. */
  lemma ReadInputWritten(p: Payload, i: Input, last0: nat)
    requires p.valid && p.readPos + 3 <= |p.data|
    requires p.data[p.readPos .. p.readPos + 3] == InputBody(i)
    ensures ReadInputBody(p, last0) == (p.(readPos := p.readPos + 3), i.sequence, i.(sequence := 0))
  {
    var fs := InputBody(i);
    assert p.data[p.readPos] == fs[0];
    assert p.data[p.readPos + 1] == fs[1];
    assert p.data[p.readPos + 2] == fs[2];
  }

  /** The input message decodes, on the server, to the input the client sent: the type tag, the
      sequence and the input itself (its sequence field aside). */
  lemma InputPacketRoundTrip(input: Input, last0: nat)
    ensures Decode(Some(InputPacket(input))).Some?
    ensures Decode(Some(InputPacket(input))).value.messageType == ToServerInput.Code()
    ensures ReadInputBody(Decode(Some(InputPacket(input))).value.payload, last0).1 == input.sequence
    ensures ReadInputBody(Decode(Some(InputPacket(input))).value.payload, last0).2 == input.(sequence := 0)
  {
    DecodeComposed(ToServerInput.Code(), InputBody(input), DEFAULT_FLAGS);
    var p := Decode(Some(InputPacket(input))).value.payload;
    assert p.data[1 .. 4] == InputBody(input);
    ReadInputWritten(p, input, last0);
  }

  /** An input message without a body leaves the last processed sequence and buffers a zero
      input: no time, no keys. */
  lemma ReadInputEmpty(p: Payload, last0: nat)
    requires p.readPos >= |p.data|
    ensures ReadInputBody(p, last0).1 == last0
    ensures ReadInputBody(p, last0).2 == Input(0, 0.0, KEY_NONE)
  {
  }
}

=== FILE: server.dfy ===
/** The authoritative server: a fixed roster whose first `maxClients` slots are players bound to
    connected peers and whose remaining slots are always-active non-player entities. Each tick
    handles the pending network events, drains every active player's buffered inputs through
    the movement model, and broadcasts a snapshot of the whole roster. */
module Server {
  import opened Base
  import opened Packet
  import opened NetworkMessage
  import opened Common
  import opened Protocol

  /** An ENet peer, by identity. */
  type PeerId = nat

  datatype ServerEntity = ServerEntity(
    id: int,
    transform: Transform,
    active: bool,
    peer: Option<PeerId>,
    lastProcessed: nat,
    inputBuffer: seq<Input>)

  /** The roster and each peer's `data` pointer, given as the index of the slot it points to
      (a peer absent from the map has a null `data`). */
  datatype ServerState = ServerState(maxClients: nat, entities: seq<ServerEntity>, peerData: map<PeerId, nat>)

  /** Network events as the host service loop delivers them. */
  datatype ServerEvent =
    | Connect(peer: PeerId)
    | Receive(peer: PeerId, packet: EnetPacket)
    | Disconnect(peer: PeerId)
    | DisconnectTimeout(peer: PeerId)
    | OtherEvent

  /** What the server hands to the transport: a packet for one peer, or one for every peer. */
  datatype Outgoing = SendTo(to: PeerId, packet: EnetPacket) | Broadcast(packet: EnetPacket)

  const PLAYER_SIZE: Vec2 := Vec2(24.0, 48.0)

  /** Frame times above this are discarded by the drain. */
  const MAX_INPUT_DT: real := 0.16

  predicate Shaped(s: ServerState) {
    s.maxClients <= |s.entities|
  }

  // ---------------------------------------------------------------------------------------
  // Construction

  function NewEntity(i: nat, maxClients: nat): ServerEntity {
    ServerEntity(
      ToI16(i),
      if i < maxClients then DefaultTransform.(size := PLAYER_SIZE) else DefaultTransform,
      i >= maxClients,
      None, 0, [])
  }

  /** `Server()`: slot `i` gets id `i`, players start inactive with the player footprint, the
      other entities start active. */
  function Init(maxClients: nat, entityCount: nat): (s: ServerState)
    requires maxClients <= entityCount
    ensures Shaped(s) && |s.entities| == entityCount && s.maxClients == maxClients
    ensures forall i :: 0 <= i < entityCount ==> (s.entities[i].active <==> i >= maxClients)
    ensures entityCount <= 0x8000 ==> forall i :: 0 <= i < entityCount ==> s.entities[i].id == i
    ensures forall i :: 0 <= i < maxClients ==> s.entities[i].transform.size == PLAYER_SIZE
    ensures forall i :: 0 <= i < entityCount ==> s.entities[i].peer.None? && s.entities[i].inputBuffer == []
    ensures s.peerData == map[]
  {
    ServerState(maxClients, seq(entityCount, i requires 0 <= i => NewEntity(i, maxClients)), map[])
  }

  // ---------------------------------------------------------------------------------------
  // The registry invariant

  /** Player slots are active exactly while a peer is bound to them, peers and slots point at
      each other, and non-player slots never bind a peer. */
  predicate RegistryOk(s: ServerState) {
    && Shaped(s)
    && (forall i :: 0 <= i < s.maxClients ==> (s.entities[i].active <==> s.entities[i].peer.Some?))
    && (forall i :: s.maxClients <= i < |s.entities| ==> s.entities[i].active && s.entities[i].peer.None?)
    && (forall p :: p in s.peerData ==> s.peerData[p] < s.maxClients && s.entities[s.peerData[p]].peer == Some(p))
    && (forall i :: 0 <= i < s.maxClients && s.entities[i].peer.Some? ==>
          s.entities[i].peer.value in s.peerData && s.peerData[s.entities[i].peer.value] == i)
  }

  /** No free player slot holds buffered inputs. The release as written does not keep this;
      the corrected release does. */
  predicate Clean(s: ServerState) {
    && Shaped(s)
    && forall i :: 0 <= i < s.maxClients && !s.entities[i].active ==> s.entities[i].inputBuffer == []
  }

  lemma InitRegistryOk(maxClients: nat, entityCount: nat)
    requires maxClients <= entityCount
    ensures RegistryOk(Init(maxClients, entityCount))
    ensures Clean(Init(maxClients, entityCount))
  {
  }

  /** The peer's `data` points at a slot of the roster. */
  predicate Slotted(s: ServerState, peer: PeerId) {
    peer in s.peerData && s.peerData[peer] < |s.entities|
  }

  // ---------------------------------------------------------------------------------------
  // Connect

  /** The lowest player slot at or after `from` with no peer. */
  function FreeSlotFrom(es: seq<ServerEntity>, maxClients: nat, from: nat): (r: Option<nat>)
    requires maxClients <= |es|
    ensures r.Some? ==> from <= r.value < maxClients && es[r.value].peer.None?
    ensures r.Some? ==> forall j :: from <= j < r.value ==> es[j].peer.Some?
    ensures r.None? ==> forall j :: from <= j < maxClients ==> es[j].peer.Some?
    decreases maxClients - from
  {
    if from >= maxClients then None
    else if es[from].peer.None? then Some(from)
    else FreeSlotFrom(es, maxClients, from + 1)
  }

  function FirstFreeSlot(s: ServerState): Option<nat>
    requires Shaped(s)
  {
    FreeSlotFrom(s.entities, s.maxClients, 0)
  }

  function ClientInfoPacket(id: int): EnetPacket {
    ToEnetPacket(Compose(ClientInfo.Code(), [I16(id)]), DEFAULT_FLAGS)
  }

  /** A packet whose body is empty: the join and leave notices. */
  function NoticePacket(kind: ToClientMessage): EnetPacket {
    ToEnetPacket(Compose(kind.Code(), []), DEFAULT_FLAGS)
  }

  /** Player slot `i` bound to `peer`, and the peer's `data` pointed at it. */
  function Claim(s: ServerState, i: nat, peer: PeerId): (r: ServerState)
    requires i < |s.entities|
    ensures r.maxClients == s.maxClients && |r.entities| == |s.entities|
    ensures r.entities[i] == s.entities[i].(peer := Some(peer), active := true)
    ensures forall j :: 0 <= j < |s.entities| && j != i ==> r.entities[j] == s.entities[j]
    ensures r.peerData == s.peerData[peer := i]
  {
    s.(entities := s.entities[i := s.entities[i].(peer := Some(peer), active := true)],
       peerData := s.peerData[peer := i])
  }

  /** Claiming a free player slot for a peer that holds none keeps the registry, and a slot
      that was free and empty stays empty. */
  lemma ClaimPreserves(s: ServerState, i: nat, peer: PeerId)
    requires RegistryOk(s) && i < s.maxClients && s.entities[i].peer.None? && peer !in s.peerData
    ensures RegistryOk(Claim(s, i, peer))
    ensures Clean(s) ==> Clean(Claim(s, i, peer))
  {
    var r := Claim(s, i, peer);
    forall p | p in r.peerData
      ensures r.peerData[p] < r.maxClients && r.entities[r.peerData[p]].peer == Some(p)
    {
      if p != peer {
        assert s.peerData[p] != i;
      }
    }
  }

  /** A connecting peer claims the lowest free player slot (peer bound, slot active, the peer's
      `data` pointed at it) and is sent that slot's id; with no slot free nothing changes and
      id 0 is sent. Everybody is then told that a player joined. */
  function OnConnect(s: ServerState, peer: PeerId): (r: (ServerState, seq<Outgoing>))
    requires Shaped(s)
    ensures Shaped(r.0) && r.0.maxClients == s.maxClients && |r.0.entities| == |s.entities|
    ensures |r.1| == 2 && r.1[1] == Broadcast(NoticePacket(PlayerJoin))
    ensures FirstFreeSlot(s).None? ==> r.0 == s && r.1[0] == SendTo(peer, ClientInfoPacket(0))
    ensures FirstFreeSlot(s).Some? ==>
              var i := FirstFreeSlot(s).value;
              && r.0.entities[i] == s.entities[i].(peer := Some(peer), active := true)
              && (forall j :: 0 <= j < |s.entities| && j != i ==> r.0.entities[j] == s.entities[j])
              && r.0.peerData == s.peerData[peer := i]
              && r.1[0] == SendTo(peer, ClientInfoPacket(s.entities[i].id))
  {
    var join := Broadcast(NoticePacket(PlayerJoin));
    match FirstFreeSlot(s)
    case None => (s, [SendTo(peer, ClientInfoPacket(0)), join])
    case Some(i) => (Claim(s, i, peer), [SendTo(peer, ClientInfoPacket(s.entities[i].id)), join])
  }

  /** A connect keeps the registry consistent, given that ENet only reports a connect for a
      peer that is not already connected. */
  lemma OnConnectPreserves(s: ServerState, peer: PeerId)
    requires RegistryOk(s) && peer !in s.peerData
    ensures RegistryOk(OnConnect(s, peer).0)
    ensures Clean(s) ==> Clean(OnConnect(s, peer).0)
  {
    if FirstFreeSlot(s).Some? {
      ClaimPreserves(s, FirstFreeSlot(s).value, peer);
    }
  }

  // ---------------------------------------------------------------------------------------
  // Disconnect and timeout

  /** Which slot release a disconnect runs: `reset_player_peer` as written, which leaves the
      slot's buffered inputs in place, or the corrected one, which drops them. */
  datatype Release = AsWritten | Corrected

  /** `reset_player_peer`: the slot the peer points at loses its peer and turns inactive; its
      buffered inputs stay where they are. The peer's `data` is cleared. A missing peer
      changes nothing, and a peer without a slot only loses its `data`. */
  function ResetPlayerPeer(s: ServerState, peer: Option<PeerId>): (r: ServerState)
    requires Shaped(s)
    ensures Shaped(r) && r.maxClients == s.maxClients && |r.entities| == |s.entities|
    ensures peer.None? ==> r == s
    ensures peer.Some? ==> r.peerData == s.peerData - {peer.value}
    ensures peer.Some? && Slotted(s, peer.value) ==>
              var i := s.peerData[peer.value];
              && r.entities[i] == s.entities[i].(peer := None, active := false)
              && r.entities[i].inputBuffer == s.entities[i].inputBuffer
              && forall j :: 0 <= j < |s.entities| && j != i ==> r.entities[j] == s.entities[j]
    ensures peer.Some? && !Slotted(s, peer.value) ==> r.entities == s.entities
  {
    match peer
    case None => s
    case Some(p) =>
      var es :=
        if Slotted(s, p) then
          var i := s.peerData[p];
          s.entities[i := s.entities[i].(peer := None, active := false)]
        else s.entities;
      s.(entities := es, peerData := s.peerData - {p})
  }

  /** `reset_player_peer` corrected: as written, and the released slot's buffer is emptied. */
  function ResetPlayerPeerCorrected(s: ServerState, peer: Option<PeerId>): (r: ServerState)
    requires Shaped(s)
    ensures Shaped(r) && r.maxClients == s.maxClients && |r.entities| == |s.entities|
    ensures peer.None? ==> r == s
    ensures peer.Some? ==> r.peerData == s.peerData - {peer.value}
    ensures peer.Some? && Slotted(s, peer.value) ==>
              var i := s.peerData[peer.value];
              && r.entities[i] == s.entities[i].(peer := None, active := false, inputBuffer := [])
              && forall j :: 0 <= j < |s.entities| && j != i ==> r.entities[j] == s.entities[j]
    ensures peer.Some? && !Slotted(s, peer.value) ==> r.entities == s.entities
  {
    match peer
    case None => s
    case Some(p) =>
      var es :=
        if Slotted(s, p) then
          var i := s.peerData[p];
          s.entities[i := s.entities[i].(peer := None, active := false, inputBuffer := [])]
        else s.entities;
      s.(entities := es, peerData := s.peerData - {p})
  }

  /** The two releases differ only in the released slot's buffer. */
  lemma CorrectedReleaseDiffers(s: ServerState, peer: PeerId)
    requires Shaped(s)
    ensures var a := ResetPlayerPeer(s, Some(peer));
            ResetPlayerPeerCorrected(s, Some(peer)) ==
              if Slotted(s, peer) then
                var i := s.peerData[peer];
                a.(entities := a.entities[i := a.entities[i].(inputBuffer := [])])
              else a
  {
  }

  function Released(rel: Release, s: ServerState, peer: Option<PeerId>): (r: ServerState)
    requires Shaped(s)
    ensures Shaped(r) && r.maxClients == s.maxClients && |r.entities| == |s.entities|
  {
    match rel
    case AsWritten => ResetPlayerPeer(s, peer)
    case Corrected => ResetPlayerPeerCorrected(s, peer)
  }

  /** Disconnect and time-out are handled alike: the peer's slot is released and everybody is
      told that a player left. */
  function OnLeave(rel: Release, s: ServerState, peer: PeerId): (r: (ServerState, seq<Outgoing>))
    requires Shaped(s)
    ensures r.0 == Released(rel, s, Some(peer))
    ensures r.1 == [Broadcast(NoticePacket(PlayerLeave))]
  {
    (Released(rel, s, Some(peer)), [Broadcast(NoticePacket(PlayerLeave))])
  }

  /** A leave keeps the registry and unbinds the peer. The slot keeps its buffered inputs when
      released as written and loses them when released as corrected, so only the corrected
      release keeps free slots empty. */
  lemma OnLeavePreserves(rel: Release, s: ServerState, peer: PeerId)
    requires RegistryOk(s)
    ensures RegistryOk(OnLeave(rel, s, peer).0)
    ensures peer !in OnLeave(rel, s, peer).0.peerData
    ensures peer in s.peerData ==>
              var i := s.peerData[peer];
              && !OnLeave(rel, s, peer).0.entities[i].active
              && OnLeave(rel, s, peer).0.entities[i].inputBuffer ==
                   (if rel.AsWritten? then s.entities[i].inputBuffer else [])
    ensures rel.Corrected? && Clean(s) ==> Clean(OnLeave(rel, s, peer).0)
  {
    var s' := OnLeave(rel, s, peer).0;
    if peer in s.peerData {
      var i := s.peerData[peer];
      forall p | p in s'.peerData
        ensures s'.peerData[p] < s'.maxClients && s'.entities[s'.peerData[p]].peer == Some(p)
      {
        assert s.entities[s.peerData[p]].peer == Some(p);
      }
    }
  }

  // ---------------------------------------------------------------------------------------
  // Receive

  function TextPacket(text: string): EnetPacket {
    ToEnetPacket(Compose(ToClientText.Code(), [Text(text)]), DEFAULT_FLAGS)
  }

  /** An input message read into player slot `i`: the sequence becomes the slot's last
      processed sequence at receipt, before any filtering, and the input joins the end of the
      slot's buffer. Nothing else changes. */
  function BufferInput(s: ServerState, i: nat, payload: Payload): (r: ServerState)
    requires i < |s.entities|
    ensures r.maxClients == s.maxClients && r.peerData == s.peerData && |r.entities| == |s.entities|
    ensures forall j :: 0 <= j < |s.entities| && j != i ==> r.entities[j] == s.entities[j]
    ensures var (_, last, input) := ReadInputBody(payload, s.entities[i].lastProcessed);
            r.entities[i] == s.entities[i].(lastProcessed := last, inputBuffer := s.entities[i].inputBuffer + [input])
  {
    var e := s.entities[i];
    var (_, last, input) := ReadInputBody(payload, e.lastProcessed);
    s.(entities := s.entities[i := e.(lastProcessed := last, inputBuffer := e.inputBuffer + [input])])
  }

  /** Buffering into an active player slot keeps the registry, and free slots stay as they
      were: only the sequence and the buffer of that slot change. */
  lemma BufferInputPreserves(s: ServerState, i: nat, payload: Payload)
    requires RegistryOk(s) && i < s.maxClients && s.entities[i].active
    ensures RegistryOk(BufferInput(s, i, payload))
    ensures Clean(s) ==> Clean(BufferInput(s, i, payload))
  {
    var r := BufferInput(s, i, payload);
    assert r.entities[i].active && r.entities[i].peer == s.entities[i].peer;
  }

  /** A received packet: text is relayed to everybody (an unreadable text relays the empty
      string); an input is buffered in the sending player's slot, where it waits for the tick;
      anything else is ignored. A packet too short to hold its type tag, and an input from a
      peer with no slot, are undefined behaviour: no result. */
  function OnReceive(s: ServerState, peer: PeerId, packet: EnetPacket): (r: Option<(ServerState, seq<Outgoing>)>)
    requires Shaped(s)
    ensures r.None? <==> (|| Decode(Some(packet)).None?
                          || (Decode(Some(packet)).value.messageType == ToServerInput.Code() && !Slotted(s, peer)))
    ensures r.Some? ==>
              var m := Decode(Some(packet)).value;
              && (m.messageType == ToServerInput.Code() ==>
                    r.value == (BufferInput(s, s.peerData[peer], m.payload), []))
              && (m.messageType == ToServerText.Code() ==>
                    r.value == (s, [Broadcast(TextPacket(ReadText(m.payload).1.GetOr("")))]))
              && (m.messageType !in {ToServerText.Code(), ToServerInput.Code()} ==> r.value == (s, []))
  {
    match Decode(Some(packet))
    case None => None
    case Some(m) =>
      match ToServerFromCode(m.messageType)
      case Some(ToServerText) =>
        var (_, text) := ReadText(m.payload);
        Some((s, [Broadcast(TextPacket(text.GetOr("")))]))
      case Some(ToServerInput) =>
        if Slotted(s, peer) then Some((BufferInput(s, s.peerData[peer], m.payload), [])) else None
      case _ => Some((s, []))
  }

  /** A receive from a connected peer is defined for every packet that holds a type tag, and
      keeps the registry consistent: inputs only reach bound, hence active, slots. */
  lemma OnReceivePreserves(s: ServerState, peer: PeerId, packet: EnetPacket)
    requires RegistryOk(s)
    ensures peer in s.peerData && Decode(Some(packet)).Some? ==> OnReceive(s, peer, packet).Some?
    ensures OnReceive(s, peer, packet).Some? ==> RegistryOk(OnReceive(s, peer, packet).value.0)
    ensures OnReceive(s, peer, packet).Some? && Clean(s) ==> Clean(OnReceive(s, peer, packet).value.0)
  {
    var m := Decode(Some(packet));
    if m.Some? && m.value.messageType == ToServerInput.Code() && Slotted(s, peer) {
      BufferInputPreserves(s, s.peerData[peer], m.value.payload);
    }
  }

  // ---------------------------------------------------------------------------------------
  // Events

  /** The events a host service loop could deliver in state `s`: ENet never reports a connect
      for a peer that is already connected. */
  predicate Deliverable(s: ServerState, e: ServerEvent) {
    e.Connect? ==> e.peer !in s.peerData
  }

  function HandleEvent(rel: Release, s: ServerState, e: ServerEvent): (r: Option<(ServerState, seq<Outgoing>)>)
    requires Shaped(s)
    ensures r.Some? ==> Shaped(r.value.0) && r.value.0.maxClients == s.maxClients && |r.value.0.entities| == |s.entities|
    ensures r.None? <==> e.Receive? && OnReceive(s, e.peer, e.packet).None?
    ensures e.OtherEvent? ==> r == Some((s, []))
  {
    match e
    case Connect(p) => Some(OnConnect(s, p))
    case Receive(p, packet) => OnReceive(s, p, packet)
    case Disconnect(p) => Some(OnLeave(rel, s, p))
    case DisconnectTimeout(p) => Some(OnLeave(rel, s, p))
    case OtherEvent => Some((s, []))
  }

  /** One event keeps the registry; with the corrected release it also keeps free slots
      empty. Only a receive can fail, and not one from a connected peer with a tagged packet. */
  lemma HandleEventPreserves(rel: Release, s: ServerState, e: ServerEvent)
    requires RegistryOk(s) && Deliverable(s, e)
    ensures e.Receive? && e.peer in s.peerData && Decode(Some(e.packet)).Some? ==> HandleEvent(rel, s, e).Some?
    ensures HandleEvent(rel, s, e).Some? ==> RegistryOk(HandleEvent(rel, s, e).value.0)
    ensures HandleEvent(rel, s, e).Some? && rel.Corrected? && Clean(s) ==> Clean(HandleEvent(rel, s, e).value.0)
  {
    match e
    case Connect(p) => OnConnectPreserves(s, p);
    case Receive(p, packet) => OnReceivePreserves(s, p, packet);
    case Disconnect(p) => OnLeavePreserves(rel, s, p);
    case DisconnectTimeout(p) => OnLeavePreserves(rel, s, p);
    case OtherEvent =>
  }

  /** Every event of the loop in order, collecting what is sent; no result once one of them
      has undefined behaviour. */
  function HandleEvents(rel: Release, s: ServerState, events: seq<ServerEvent>): (r: Option<(ServerState, seq<Outgoing>)>)
    requires Shaped(s)
    ensures r.Some? ==> Shaped(r.value.0) && r.value.0.maxClients == s.maxClients && |r.value.0.entities| == |s.entities|
    ensures events == [] ==> r == Some((s, []))
    decreases |events|
  {
    if events == [] then Some((s, []))
    else
      match HandleEvent(rel, s, events[0])
      case None => None
      case Some((s1, out1)) =>
        match HandleEvents(rel, s1, events[1..])
        case None => None
        case Some((s2, out2)) => Some((s2, out1 + out2))
  }

  /** A run of events each of which ENet could deliver at its point in the run and none of
      which has undefined behaviour. */
  predicate Plausible(rel: Release, s: ServerState, events: seq<ServerEvent>)
    requires Shaped(s)
    decreases |events|
  {
    events == [] ||
    (&& Deliverable(s, events[0])
     && match HandleEvent(rel, s, events[0])
        case None => false
        case Some((s1, _)) => Plausible(rel, s1, events[1..]))
  }

  lemma {:induction false} HandleEventsPreserves(rel: Release, s: ServerState, events: seq<ServerEvent>)
    requires RegistryOk(s) && Plausible(rel, s, events)
    ensures HandleEvents(rel, s, events).Some?
    ensures RegistryOk(HandleEvents(rel, s, events).value.0)
    ensures rel.Corrected? && Clean(s) ==> Clean(HandleEvents(rel, s, events).value.0)
    decreases |events|
  {
    if events != [] {
      HandleEventPreserves(rel, s, events[0]);
      var s1 := HandleEvent(rel, s, events[0]).value.0;
      HandleEventsPreserves(rel, s1, events[1..]);
    }
  }

  /** The loop after its first event: it goes on from the state that event leaves, and fails
      exactly when the rest does. */
  lemma HandleEventsFirst(rel: Release, s: ServerState, events: seq<ServerEvent>)
    requires Shaped(s) && events != [] && HandleEvent(rel, s, events[0]).Some?
    ensures var s1 := HandleEvent(rel, s, events[0]).value.0;
            && (HandleEvents(rel, s, events).Some? <==> HandleEvents(rel, s1, events[1..]).Some?)
            && (HandleEvents(rel, s, events).Some? ==>
                  HandleEvents(rel, s, events).value.0 == HandleEvents(rel, s1, events[1..]).value.0)
  {
  }

  // ---------------------------------------------------------------------------------------
  // The input drain

  /** One accepted input on the server: the shared input step followed by a second collision
      pass. */
  function ServerStep(w: World, t: Transform, input: Input): (r: Transform)
    ensures r.size == t.size
  {
    ApplyMapCollisions(w, ProcessInput(w, t, input))
  }

  predicate Accepted(input: Input) {
    input.dt <= MAX_INPUT_DT
  }

  /** The buffer in order, each input applied only when its frame time is accepted. */
  function DrainInputs(w: World, t: Transform, inputs: seq<Input>): (r: Transform)
    ensures r.size == t.size
    decreases |inputs|
  {
    if inputs == [] then t
    else DrainInputs(w, if Accepted(inputs[0]) then ServerStep(w, t, inputs[0]) else t, inputs[1..])
  }

  /** The accepted inputs, in order, each as often as it was buffered. */
  function AcceptedOnly(inputs: seq<Input>): (r: seq<Input>)
    ensures |r| <= |inputs|
    ensures forall k :: 0 <= k < |r| ==> Accepted(r[k]) && r[k] in inputs
    decreases |inputs|
  {
    if inputs == [] then []
    else if Accepted(inputs[0]) then [inputs[0]] + AcceptedOnly(inputs[1..])
    else AcceptedOnly(inputs[1..])
  }

  /** The filter keeps each accepted input as often as the buffer holds it and drops every
      rejected one; in particular no accepted input is lost. */
  lemma {:induction false} AcceptedOnlyCounts(inputs: seq<Input>, x: Input)
    ensures multiset(AcceptedOnly(inputs))[x] == if Accepted(x) then multiset(inputs)[x] else 0
    ensures x in inputs && Accepted(x) ==> x in AcceptedOnly(inputs)
    decreases |inputs|
  {
    if inputs != [] {
      AcceptedOnlyCounts(inputs[1..], x);
      assert inputs == [inputs[0]] + inputs[1..];
      assert multiset(inputs) == multiset([inputs[0]]) + multiset(inputs[1..]);
    }
  }

  /** The filter keeps the order of the buffer: filtering a buffer made of two parts filters
      each part and keeps the first part's inputs first. */
  lemma {:induction false} AcceptedOnlyAppend(a: seq<Input>, b: seq<Input>)
    ensures AcceptedOnly(a + b) == AcceptedOnly(a) + AcceptedOnly(b)
    decreases |a|
  {
    if a == [] {
      assert a + b == b;
    } else {
      var c := a + b;
      assert c[0] == a[0] && c[1..] == a[1..] + b;
      AcceptedOnlyAppend(a[1..], b);
      if Accepted(a[0]) {
        assert AcceptedOnly(c) == [a[0]] + (AcceptedOnly(a[1..]) + AcceptedOnly(b));
        assert AcceptedOnly(a) == [a[0]] + AcceptedOnly(a[1..]);
      } else {
        assert AcceptedOnly(c) == AcceptedOnly(a[1..]) + AcceptedOnly(b);
      }
    }
  }

  /** Every input applied in order, unfiltered. */
  function StepAll(w: World, t: Transform, inputs: seq<Input>): Transform
    decreases |inputs|
  {
    if inputs == [] then t else StepAll(w, ServerStep(w, t, inputs[0]), inputs[1..])
  }

  /** The drain is the same as discarding the rejected inputs and applying the rest in order. */
  lemma {:induction false} DrainIsFilterThenStep(w: World, t: Transform, inputs: seq<Input>)
    ensures DrainInputs(w, t, inputs) == StepAll(w, t, AcceptedOnly(inputs))
    decreases |inputs|
  {
    if inputs != [] {
      if Accepted(inputs[0]) {
        DrainIsFilterThenStep(w, ServerStep(w, t, inputs[0]), inputs[1..]);
        var rest := AcceptedOnly(inputs[1..]);
        assert AcceptedOnly(inputs) == [inputs[0]] + rest;
        assert ([inputs[0]] + rest)[0] == inputs[0];
        assert ([inputs[0]] + rest)[1..] == rest;
      } else {
        DrainIsFilterThenStep(w, t, inputs[1..]);
      }
    }
  }

  /** A buffer of rejected inputs only leaves the transform untouched, without even a
      collision pass. */
  lemma {:induction false} AllRejectedIsNoOp(w: World, t: Transform, inputs: seq<Input>)
    requires forall k :: 0 <= k < |inputs| ==> !Accepted(inputs[k])
    ensures DrainInputs(w, t, inputs) == t
    decreases |inputs|
  {
    if inputs != [] {
      AllRejectedIsNoOp(w, t, inputs[1..]);
    }
  }

  /** One player at the tick: an inactive slot is skipped, buffer and all; an active one runs
      its buffer, or a single collision pass when the buffer is empty, and is left with an
      empty buffer. */
  function DrainPlayer(w: World, e: ServerEntity): (r: ServerEntity)
    ensures !e.active ==> r == e
    ensures e.active ==> r.inputBuffer == [] && r == e.(transform := r.transform, inputBuffer := [])
    ensures e.active && e.inputBuffer == [] ==> r.transform == ApplyMapCollisions(w, e.transform)
    ensures e.active && e.inputBuffer != [] ==>
              r.transform == StepAll(w, e.transform, AcceptedOnly(e.inputBuffer))
  {
    if !e.active then e
    else
      DrainIsFilterThenStep(w, e.transform, e.inputBuffer);
      var t := if e.inputBuffer == [] then ApplyMapCollisions(w, e.transform) else DrainInputs(w, e.transform, e.inputBuffer);
      e.(transform := t, inputBuffer := [])
  }

  /** Every player slot drained; the other entities are not touched here. */
  function DrainPlayers(w: World, s: ServerState): (r: ServerState)
    requires Shaped(s)
    ensures r.maxClients == s.maxClients && r.peerData == s.peerData && |r.entities| == |s.entities|
    ensures forall i :: 0 <= i < s.maxClients ==> r.entities[i] == DrainPlayer(w, s.entities[i])
    ensures forall i :: s.maxClients <= i < |s.entities| ==> r.entities[i] == s.entities[i]
  {
    s.(entities := seq(|s.entities|, i requires 0 <= i < |s.entities| =>
         if i < s.maxClients then DrainPlayer(w, s.entities[i]) else s.entities[i]))
  }

  /** The drain keeps the registry: only transforms and buffers of active slots change, and
      every active player is left with an empty buffer. Inactive slots keep theirs, so every
      player buffer ends empty exactly when free slots were empty before. */
  lemma DrainPreserves(w: World, s: ServerState)
    requires RegistryOk(s)
    ensures RegistryOk(DrainPlayers(w, s))
    ensures forall i :: 0 <= i < s.maxClients && s.entities[i].active ==>
              DrainPlayers(w, s).entities[i].active && DrainPlayers(w, s).entities[i].inputBuffer == []
    ensures forall i :: 0 <= i < s.maxClients && !s.entities[i].active ==>
              DrainPlayers(w, s).entities[i] == s.entities[i]
    ensures Clean(s) <==> forall i :: 0 <= i < s.maxClients ==> DrainPlayers(w, s).entities[i].inputBuffer == []
  {
    var r := DrainPlayers(w, s);
    forall i | 0 <= i < s.maxClients
      ensures r.entities[i].active == s.entities[i].active && r.entities[i].peer == s.entities[i].peer
    {
      assert r.entities[i] == DrainPlayer(w, s.entities[i]);
    }
  }

  // ---------------------------------------------------------------------------------------
  // Where the server's step and the client's prediction part ways

  /** A world without solid tiles. */
  const OpenWorld: World := World((x: int, y: int) => false)

  /** In open space the server's extra collision pass moves the entity by its velocity a second
      time: its horizontal displacement is twice the one the client predicts for the same input. */
  lemma OpenSpaceServerMovesTwice(t: Transform, input: Input)
    ensures ServerStep(OpenWorld, t, input).position.x - t.position.x
         == 2.0 * (ProcessInput(OpenWorld, t, input).position.x - t.position.x)
    ensures ProcessInput(OpenWorld, t, input).position.x != t.position.x ==>
              ServerStep(OpenWorld, t, input).position.x != ProcessInput(OpenWorld, t, input).position.x
  {
    var a := Accelerate(t, input);
    assert !BlockedX(OpenWorld, a);
    var c := ApplyMapCollisions(OpenWorld, a);
    assert c.position.x == t.position.x + a.velocity.x && c.velocity.x == a.velocity.x;
    assert !BlockedX(OpenWorld, c);
  }

  /** The client's step from rest on the ground with no key held: it stays in place, but with
      zero vertical speed it does not land, so it turns airborne with gravity as its speed. */
  lemma {:induction false} RestingClientStep(w: World, t: Transform, input: Input, ty: int)
    requires OnGround(w, t, ty) && t.velocity.y == 0.0
    requires DecodeKeys(input.keys) == NoActions
    ensures var c := ProcessInput(w, t, input);
            c.position == t.position && c.velocity == Vec2(0.0, GRAVITY) && !c.grounded
  {
    NoActionsNoPush(t.velocity, t.grounded, input.dt);
    var a := Accelerate(t, input);
    assert Pushed(t, input) == t.velocity;
    assert a.velocity == Zero && a.position == t.position;
    TileYOnEdge(a, ty);
  }

  /** A collision pass over an entity on a tile edge, still and moving down onto a solid tile,
      lands it where it is. */
  lemma LandsInPlace(w: World, c: Transform, ty: int)
    requires c.position.y == ty as real * TILE_SIZE && c.velocity == Vec2(0.0, GRAVITY)
    requires Occupied(w, TileX(c), ty + 1)
    ensures ApplyMapCollisions(w, c).grounded
    ensures ApplyMapCollisions(w, c).position == c.position
  {
    TileYOnEdge(c, ty);
  }

  /** An entity at rest on the ground with no key held: the client's step leaves it airborne
      (its vertical speed is zero, so it does not land, and gravity is added), while the
      server's second pass lands it again. Both keep it in place. */
  lemma RestingGroundedDiverges(w: World, t: Transform, input: Input, ty: int)
    requires OnGround(w, t, ty) && t.velocity.y == 0.0
    requires DecodeKeys(input.keys) == NoActions
    ensures !ProcessInput(w, t, input).grounded
    ensures ServerStep(w, t, input).grounded
    ensures ServerStep(w, t, input).position == ProcessInput(w, t, input).position == t.position
  {
    RestingClientStep(w, t, input, ty);
    var c := ProcessInput(w, t, input);
    assert TileX(c) == TileX(t);
    LandsInPlace(w, c, ty);
  }

  // ---------------------------------------------------------------------------------------
  // A released slot and the inputs left in it

  const STALE_INPUT: Input := Input(0, 0.1, KEY_D)

  /** One player slot, bound to peer 7, holding an input it has not drained yet. */
  function StaleExample(): (s: ServerState)
    ensures RegistryOk(s) && Clean(s)
  {
    ServerState(1, [ServerEntity(0, DefaultTransform.(size := PLAYER_SIZE), true, Some(7), 3, [STALE_INPUT])], map[7 := 0])
  }

  /** `reset_player_peer` as written: releasing peer 7 leaves its input in the free slot, and
      peer 8, connecting next, inherits it; the following drain applies an input peer 8 never
      sent. */
  lemma ResetAsWrittenLeavesStaleInput()
    ensures RegistryOk(ResetPlayerPeer(StaleExample(), Some(7)))
    ensures !Clean(ResetPlayerPeer(StaleExample(), Some(7)))
    ensures var s := OnConnect(ResetPlayerPeer(StaleExample(), Some(7)), 8).0;
            s.entities[0].peer == Some(8) && s.entities[0].inputBuffer == [STALE_INPUT]
  {
    OnLeavePreserves(AsWritten, StaleExample(), 7);
    var r := ResetPlayerPeer(StaleExample(), Some(7));
    assert r.entities[0].inputBuffer == [STALE_INPUT] && !r.entities[0].active;
    assert FirstFreeSlot(r) == Some(0);
  }

  /** While free slots are empty, a newly connected peer always starts from an empty buffer. */
  lemma ConnectStartsClean(s: ServerState, peer: PeerId)
    requires RegistryOk(s) && Clean(s) && FirstFreeSlot(s).Some?
    ensures OnConnect(s, peer).0.entities[FirstFreeSlot(s).value].inputBuffer == []
  {
  }

  /** The example again, with the corrected release: peer 8 gets an empty buffer. */
  lemma ResetClearsStaleInput()
    ensures RegistryOk(ResetPlayerPeerCorrected(StaleExample(), Some(7)))
    ensures Clean(ResetPlayerPeerCorrected(StaleExample(), Some(7)))
    ensures var s := OnConnect(ResetPlayerPeerCorrected(StaleExample(), Some(7)), 8).0;
            s.entities[0].peer == Some(8) && s.entities[0].inputBuffer == []
  {
    OnLeavePreserves(Corrected, StaleExample(), 7);
    var r := ResetPlayerPeerCorrected(StaleExample(), Some(7));
    assert FirstFreeSlot(r) == Some(0);
    ConnectStartsClean(r, 8);
  }

  // ---------------------------------------------------------------------------------------
  // Snapshot and tick

  function RecordOf(e: ServerEntity): Record {
    Record(e.id, e.lastProcessed, e.transform.position, e.active)
  }

  function Records(es: seq<ServerEntity>): (rs: seq<Record>)
    ensures |rs| == |es|
    ensures forall i :: 0 <= i < |es| ==> rs[i] == RecordOf(es[i])
  {
    seq(|es|, i requires 0 <= i < |es| => RecordOf(es[i]))
  }

  /** The snapshot: one record per entity in roster order, with the default (reliable) flag. */
  function SnapshotPacket(s: ServerState): (p: EnetPacket)
    ensures p.flags == DEFAULT_FLAGS
    ensures p.data == [U16(Snapshot.Code())] + SnapshotBody(Records(s.entities))
  {
    ToEnetPacket(Compose(Snapshot.Code(), SnapshotBody(Records(s.entities))), DEFAULT_FLAGS)
  }

  /** A decoded snapshot packet gives back, record by record, every entity's id, last processed
      sequence, position and active flag, whatever the reading side held before. */
  lemma SnapshotRoundTrip(s: ServerState, ids: seq<int>, actives: seq<bool>)
    requires |ids| == |actives| == |s.entities|
    ensures Decode(Some(SnapshotPacket(s))).Some?
    ensures Decode(Some(SnapshotPacket(s))).value.messageType == Snapshot.Code()
    ensures ReadRecords(Decode(Some(SnapshotPacket(s))).value.payload, ids, actives).1 == Records(s.entities)
  {
    var body := SnapshotBody(Records(s.entities));
    DecodeComposed(Snapshot.Code(), body, DEFAULT_FLAGS);
    var p := Decode(Some(SnapshotPacket(s))).value.payload;
    assert p == Payload([U16(Snapshot.Code())] + body, 1, true);
    assert p.data[1 .. 1 + |body|] == body;
    ReadSnapshotBody(p, Records(s.entities), ids, actives);
  }

  /** One tick: the events, the player drain, then the snapshot broadcast. Non-player
      steering, which runs between the drain and the snapshot, is not part of this model. */
  function Tick(rel: Release, w: World, s: ServerState, events: seq<ServerEvent>): (r: Option<(ServerState, seq<Outgoing>)>)
    requires Shaped(s)
    ensures r.Some? ==> Shaped(r.value.0) && |r.value.1| >= 1
    ensures r.Some? ==> r.value.1[|r.value.1| - 1] == Broadcast(SnapshotPacket(r.value.0))
    ensures r.None? <==> HandleEvents(rel, s, events).None?
  {
    match HandleEvents(rel, s, events)
    case None => None
    case Some((s1, out)) =>
      var s2 := DrainPlayers(w, s1);
      Some((s2, out + [Broadcast(SnapshotPacket(s2))]))
  }

  /** A tick over events ENet could deliver keeps the registry consistent and leaves every
      active player's buffer empty. With the corrected release, free slots stay empty too, so
      every player buffer ends empty. */
  lemma TickPreserves(rel: Release, w: World, s: ServerState, events: seq<ServerEvent>)
    requires RegistryOk(s) && Plausible(rel, s, events)
    ensures Tick(rel, w, s, events).Some?
    ensures RegistryOk(Tick(rel, w, s, events).value.0)
    ensures forall i :: 0 <= i < s.maxClients && Tick(rel, w, s, events).value.0.entities[i].active ==>
              Tick(rel, w, s, events).value.0.entities[i].inputBuffer == []
    ensures rel.Corrected? && Clean(s) ==>
              forall i :: 0 <= i < s.maxClients ==> Tick(rel, w, s, events).value.0.entities[i].inputBuffer == []
  {
    HandleEventsPreserves(rel, s, events);
    DrainPreserves(w, HandleEvents(rel, s, events).value.0);
  }

  // ---------------------------------------------------------------------------------------
  // A whole tick with a player who sends one input and leaves

  const SENT: Input := Input(5, 0.1, KEY_D)

  /** Peer 7 connects, sends one input and disconnects, all before the same drain. */
  const STALE_RUN: seq<ServerEvent> := [Connect(7), Receive(7, InputPacket(SENT)), Disconnect(7)]

  /** Peer 7 holding the only player slot of a one-player server, nothing buffered yet. */
  function StaleRunJoined(): (s: ServerState)
    ensures RegistryOk(s) && Clean(s)
  {
    ServerState(1, [ServerEntity(0, DefaultTransform.(size := PLAYER_SIZE), true, Some(7), 0, [])], map[7 := 0])
  }

  /** The same after peer 7's input message: its sequence recorded, the input buffered. */
  function StaleRunBuffered(): (s: ServerState)
    ensures RegistryOk(s) && Clean(s)
  {
    ServerState(1, [ServerEntity(0, DefaultTransform.(size := PLAYER_SIZE), true, Some(7), 5, [SENT.(sequence := 0)])], map[7 := 0])
  }

  /** The connect: peer 7 takes the free slot of a fresh server. */
  lemma StaleRunConnect(rel: Release)
    ensures HandleEvent(rel, Init(1, 1), STALE_RUN[0]).Some?
    ensures HandleEvent(rel, Init(1, 1), STALE_RUN[0]).value.0 == StaleRunJoined()
  {
    assert FirstFreeSlot(Init(1, 1)) == Some(0);
  }

  /** Buffering a message body that reads as sequence 5 and the sent input. */
  lemma StaleRunBuffer(p: Payload)
    requires ReadInputBody(p, 0).1 == 5 && ReadInputBody(p, 0).2 == SENT.(sequence := 0)
    ensures BufferInput(StaleRunJoined(), 0, p) == StaleRunBuffered()
  {
    var s1 := StaleRunJoined();
    assert s1.entities[0].inputBuffer + [SENT.(sequence := 0)] == [SENT.(sequence := 0)];
    assert BufferInput(s1, 0, p).entities[0] == StaleRunBuffered().entities[0];
    assert BufferInput(s1, 0, p).entities == StaleRunBuffered().entities;
  }

  /** The input message reaches the slot: its sequence is recorded and the input, without its
      sequence, is buffered. */
  lemma StaleRunReceive(rel: Release)
    ensures HandleEvent(rel, StaleRunJoined(), STALE_RUN[1]) == Some((StaleRunBuffered(), []))
  {
    InputPacketRoundTrip(SENT, 0);
    var m := Decode(Some(InputPacket(SENT))).value;
    StaleRunBuffer(m.payload);
    var s1 := StaleRunJoined();
    assert Slotted(s1, 7) && s1.peerData[7] == 0;
    assert OnReceive(s1, 7, InputPacket(SENT)) == Some((BufferInput(s1, 0, m.payload), []));
  }

  /** The disconnect, as the last event of the run: the slot is free, its sequence kept, and its
      buffer holds the input unless the release drops it. */
  lemma StaleRunLeave(rel: Release)
    ensures HandleEvents(rel, StaleRunBuffered(), STALE_RUN[2..]).Some?
    ensures var s := HandleEvents(rel, StaleRunBuffered(), STALE_RUN[2..]).value.0;
            && RegistryOk(s) && s.maxClients == |s.entities| == 1
            && !s.entities[0].active && s.entities[0].peer.None? && s.entities[0].lastProcessed == 5
            && s.entities[0].inputBuffer == (if rel.AsWritten? then [SENT.(sequence := 0)] else [])
  {
    var s2 := StaleRunBuffered();
    assert STALE_RUN[2..] == [Disconnect(7)] && STALE_RUN[2..][1..] == [];
    HandleEventsFirst(rel, s2, STALE_RUN[2..]);
    OnLeavePreserves(rel, s2, 7);
  }

  /** The events of that run on a one-player server: after the connect and the input message
      only the disconnect is left to handle. */
  lemma StaleRunEvents(rel: Release)
    ensures HandleEvents(rel, Init(1, 1), STALE_RUN).Some? == HandleEvents(rel, StaleRunBuffered(), STALE_RUN[2..]).Some?
    ensures HandleEvents(rel, Init(1, 1), STALE_RUN).Some? ==>
              HandleEvents(rel, Init(1, 1), STALE_RUN).value.0 == HandleEvents(rel, StaleRunBuffered(), STALE_RUN[2..]).value.0
  {
    StaleRunConnect(rel);
    HandleEventsFirst(rel, Init(1, 1), STALE_RUN);
    StaleRunReceive(rel);
    assert STALE_RUN[1..][0] == STALE_RUN[1] && STALE_RUN[1..][1..] == STALE_RUN[2..];
    HandleEventsFirst(rel, StaleRunJoined(), STALE_RUN[1..]);
  }

  /** The tick after the loop: the drain over the loop's result, then the snapshot. */
  lemma TickDrains(rel: Release, w: World, s: ServerState, events: seq<ServerEvent>)
    requires Shaped(s) && HandleEvents(rel, s, events).Some?
    ensures Tick(rel, w, s, events).Some?
    ensures Tick(rel, w, s, events).value.0 == DrainPlayers(w, HandleEvents(rel, s, events).value.0)
  {
  }

  /** The run through a whole tick, in any world. As written, the drain skips the free slot and
      the input stays there after the tick, waiting for the next peer that claims the slot;
      with the corrected release the slot ends empty. */
  lemma TickLeavesStaleInput(rel: Release, w: World)
    ensures var r := Tick(rel, w, Init(1, 1), STALE_RUN);
            && r.Some? && RegistryOk(r.value.0) && (Clean(r.value.0) <==> rel.Corrected?)
            && !r.value.0.entities[0].active
            && r.value.0.entities[0].inputBuffer == (if rel.AsWritten? then [SENT.(sequence := 0)] else [])
  {
    StaleRunLeave(rel);
    StaleRunEvents(rel);
    var s3 := HandleEvents(rel, Init(1, 1), STALE_RUN).value.0;
    DrainPreserves(w, s3);
    TickDrains(rel, w, Init(1, 1), STALE_RUN);
  }
}
